=== FILE: README.md ===
# pmrapp workspace browsing, modelled in Dafny

pmrapp is a web application for browsing model workspaces: git repositories whose rows sit in a
metadata store. Two generations of it are modelled here.

- **The newer server** (`pmrapp/server`) has:
  - a JSON API for the listing, a workspace's top record and merged path info at three route arities;
  - HTML pages that embed the client state the browser resumes from;
  - a raw download of a file at a commit;
  - an HTTP error type, which maps each error to a status code.
- **The newer client** (`pmrapp/client`) is a browser state machine. Its state is:
  - the resource the page is about;
  - the fetched content;
  - a loading flag.

  Every fetch carries the resource it was issued for. An answer for a resource that is no longer
  current is dropped.
- **The older server and client** (`server`, `client`) have:
  - a JSON API with a route table that sends a workspace's root and its `file/` root to the same resolution;
  - a client that addresses resources by URL strings, printed and parsed by a small codec.

The metadata store, the git repository and the path resolver are fixed answers held by a `Context`
value: functions from ids and coordinates to results. The handlers are pure functions of that
context. The browser client is a transition function from a state and a message to a new state plus
a list of effects (history updates, fetches, scrolling).

The modules:
- `Text`: the parts of Rust's standard library the handlers rely on:
  - `str::split`;
  - `{}` formatting of an `i64`;
  - `str::parse::<i64>`;
  - UTF-8 encoding of a `String`.
- `Model`: the shared record shapes.
- `ServerError`: the newer server's errors.
- `WorkspaceApi`: the newer JSON API.
- `WorkspacePages`: the newer pages and raw download.
- `ClientApp`: the newer client.
- `ClientFetch`: the answers the newer client's fetches dispatch.
- `LegacyClientApp`: the older client.
- `LegacyWorkspaceApi`: the older API.

## Model

| member | source | states |
|---|---|---|
| Text.Split | client/src/app/mod.rs:90 | `url.split("/")` always yields at least one piece, and no piece contains the separator |
| Text.JoinSplit | client/src/app/mod.rs:90 | joining the pieces of a split with the separator gives back the original string, so splitting loses nothing |
| Text.SplitJoin | client/src/app/mod.rs:90 | splitting the join of separator-free pieces gives back exactly those pieces |
| Text.SplitAfterPiece | client/src/app/mod.rs:90 | a separator-free piece followed by the separator is split off as the first piece, and the rest is split on its own |
| Text.SplitAfterTwoPieces | client/src/app/mod.rs:90 | two separator-free leading pieces are split off one after the other |
| Text.SplitWithoutSeparator | client/src/app/mod.rs:90 | a string without the separator is a single piece |
| Text.NatDigits | client/src/app/mod.rs:85 | the decimal numeral of a natural number is non-empty, all digits, reads back as the number, and has no leading zero unless it is `0` |
| Text.FormatInt | client/src/app/mod.rs:85 | `{}` formatting of an integer is non-empty, all digits apart from a leading `-`, and has the `-` exactly for negative values |
| Text.ParseI64 | client/src/app/mod.rs:92 | `parse::<i64>()` accepts a string exactly when it is a decimal numeral (an optional `+` or `-`, then at least one digit) whose value is within the `i64` range, and then yields that value |
| Text.AccumulateValue | client/src/app/mod.rs:92 | the checked digit-by-digit accumulation of the parser computes the signed value of the digits, and fails exactly when that value leaves the `i64` range |
| Text.PaddedNumeralsAccepted | client/src/app/mod.rs:92 | an in-range numeral is accepted bare, with a leading zero and with an explicit `+`, all with the same value, and with a `-` it yields the negated value |
| Text.ParseFormat | client/src/app/mod.rs:84-93 | every `i64`, `i64::MIN` included, parses back from its `{}` formatting |
| Text.Utf8Char | pmrapp/server/src/http/workspace.rs:152 | each character encodes to 1 to 4 bytes, one byte exactly for ASCII, with continuation bytes after the first |
| Text.Utf8 | pmrapp/server/src/http/workspace.rs:152 | `into_bytes` produces at least one byte per character |
| Text.DecodeFirst | pmrapp/server/src/http/workspace.rs:152 | a decoded character never consumes more bytes than there are, and consumes at least one |
| Text.DecodeFirstUtf8Char | pmrapp/server/src/http/workspace.rs:152 | the first encoded character of a byte string decodes to itself with its encoded length, whatever follows |
| Text.Utf8RoundTrip | pmrapp/server/src/http/workspace.rs:152 | the bytes of a string decode back to the string |
| Text.Utf8Append | pmrapp/server/src/http/workspace.rs:152 | the encoding of a concatenation is the concatenation of the encodings |
| Text.Utf8Ascii | pmrapp/server/src/http/workspace.rs:152 | an ASCII string encodes to its own code points, byte for byte |
| ServerError.FromCause | pmrapp/server/src/http/error.rs:20-25 | a library failure converted by `?` becomes a 500-class variant, and `Anyhow` exactly when it was an `anyhow` failure |
| ServerError.Message | pmrapp/server/src/http/error.rs:8-25 | every display message opens with a three-digit status code and a space; the code starts with `4` exactly for the four client errors, and is `500` for the others |
| ServerError.StatusCodeAsWritten | pmrapp/server/src/http/error.rs:30-37 | the status is 401, 403 or 404 exactly for `Unauthorized`, `Forbidden` and `NotFound`, and 500 for every other variant |
| ServerError.BadRequestStatusDisagreesWithMessage | pmrapp/server/src/http/error.rs:9-10 | `BadRequest`'s message announces 400, yet the status mapping as written answers it with 500 |
| ServerError.StatusCode | pmrapp/server/src/http/error.rs:9-37 | the corrected mapping answers 400 exactly for `BadRequest`, and agrees with the mapping as written on every other variant |
| ServerError.StatusCodeMatchesMessage | pmrapp/server/src/http/error.rs:9-37 | every variant is answered with the status code its display message opens with |
| ServerError.ServerFailureAnnounces500 | pmrapp/server/src/http/error.rs:18-25 | the four variants sharing the generic message announce 500 |
| ServerError.IntoResponse | pmrapp/server/src/http/error.rs:41-50 | the response's status is 401, 403, 404 or 500, with 401, 403 and 404 exactly for `Unauthorized`, `Forbidden` and `NotFound`; the error is logged exactly when it is `Anyhow` |
| ServerError.ResponseMatchesMessageUnlessBadRequest | pmrapp/server/src/http/error.rs:9-50 | the response carries the status its error's message announces for every variant except `BadRequest` |
| ServerError.CorrectedIntoResponse | pmrapp/server/src/http/error.rs:9-50 | with the corrected mapping, every response carries the status its error's message announces, and it differs from the response as written only for `BadRequest` |
| ServerError.RaisableStatus | pmrapp/server/src/http/error.rs:30-36 | the errors the handlers raise are answered with 404 or 500, and with 404 exactly for `NotFound` |
| WorkspaceApi.ApiWorkspace | pmrapp/server/src/http/api/workspace.rs:36-39 | the listing succeeds exactly when the store's query does, and is then the store's rows unchanged and in order; otherwise it is the store's failure converted (the older server's listing handler, `server/src/http/api/workspace.rs:40-43`, is the same function) |
| WorkspaceApi.ApiWorkspaceTop | pmrapp/server/src/http/api/workspace.rs:41-64 | an unknown workspace is `NotFound`; a known one always succeeds, with a head commit exactly when the repository opens and the default resolution succeeds, and that commit is the resolution's |
| WorkspaceApi.ApiWorkspaceTopSsr | pmrapp/server/src/http/api/workspace.rs:66-99 | an unknown workspace is `NotFound`; a repository that does not open is its converted failure; otherwise the record has a head commit exactly when path info comes with it, and both come from the same default resolution |
| WorkspaceApi.ApiWorkspacePathinfo | pmrapp/server/src/http/api/workspace.rs:101-134 | an unknown workspace and every resolver error are `NotFound`; a repository that does not open is its converted failure; a resolution is served as the merged info of that workspace and exactly that result; the handler never raises the internal error |
| WorkspaceApi.PathinfoWorkspaceId | pmrapp/server/src/http/api/workspace.rs:136-141 | the workspace route resolves with no commit and no path |
| WorkspaceApi.PathinfoWorkspaceIdCommitId | pmrapp/server/src/http/api/workspace.rs:143-148 | the commit route resolves the captured commit with no path |
| WorkspaceApi.PathinfoWorkspaceIdCommitIdPath | pmrapp/server/src/http/api/workspace.rs:151-156 | the path route resolves the captured commit and path |
| WorkspaceApi.TopSsrAgreesWithTop | pmrapp/server/src/http/api/workspace.rs:41-99 | whenever the server-rendering variant succeeds, its record is the one the JSON endpoint serves; a head commit announced by the JSON endpoint is the commit of the default path info |
| WorkspaceApi.Dispatch | pmrapp/server/src/http/api/workspace.rs:21-34 | the listing route serves the store's rows or their converted failure; the top route serves exactly the top record for a known workspace and `NotFound` otherwise; each of the four path-info routes serves path info for the commit and path it captures |
| WorkspaceApi.RawApiRouteServesPathinfo | pmrapp/server/src/http/api/workspace.rs:30-33 | the API's `raw/` route answers exactly as the `file/` route with the same captures: JSON path info, not the file's bytes |
| WorkspacePages.RenderWorkspaceListing | pmrapp/server/src/http/workspace.rs:40-49 | the listing page is HTML exactly when the listing succeeds, embedding a settled client state for that listing; otherwise it is the error's response |
| WorkspacePages.RenderWorkspace | pmrapp/server/src/http/workspace.rs:51-64 | the top page is HTML exactly when the server-rendering top record succeeds, embedding that record and its path info for the requested id |
| WorkspacePages.RenderPathinfoCommit | pmrapp/server/src/http/workspace.rs:66-81 | the commit page embeds exactly the settled state `with_workspace_pathinfo` builds for the commit's path info, under a resource with the empty path |
| WorkspacePages.RenderPathinfoCommitPath | pmrapp/server/src/http/workspace.rs:83-98 | the path page embeds exactly the settled state `with_workspace_pathinfo` builds for the path info, under a resource with the captured commit and path unchanged |
| WorkspacePages.RawPathinfo | pmrapp/server/src/http/workspace.rs:100-163 | unknown workspace, resolver error, non-blob target and blob-less object are `NotFound`; a repository that does not open is its converted failure; a blob is served byte for byte unless the buffer write fails (internal error); a sub-repository boundary is served as the text `location/raw/commit/path` |
| WorkspacePages.RawAgreesWithPathinfo | pmrapp/server/src/http/workspace.rs:100-163 | the download serves bytes exactly when the path info for the same coordinates resolves to a blob-kinded object with content or to a sub-repository; those bytes are the blob's; every other outcome is the path info's error or `NotFound` |
| WorkspacePages.SubRepoBodyIsRedirectText | pmrapp/server/src/http/workspace.rs:150-153 | the sub-repository body decodes to the redirect text, and for an ASCII location it starts with the location's own bytes |
| WorkspacePages.SubRepoBody | pmrapp/server/src/http/workspace.rs:150-153 | the sub-repository body is the UTF-8 encoding of `location/raw/commit/path`: it decodes back to that text, and is at least as long as it |
| WorkspacePages.HandlerErrorsAre404Or500 | pmrapp/server/src/http/workspace.rs:40-163 | the listing page fails only with 500; the top, commit and path pages and the download fail only with 404 or 500 |
| WorkspacePages.PathPageHydratesConsistently | pmrapp/server/src/http/workspace.rs:83-98 | a rendered path page embeds a settled state for the requested coordinates that takes over history on start, and which the JSON answer for the same resource leaves unchanged |
| WorkspacePages.TopPageHydratesConsistently | pmrapp/server/src/http/workspace.rs:51-64 | if the resolver answers the reported head commit as it answers the default, the client's own fetch of that workspace delivers content, and that content leaves the embedded top-page state unchanged |
| WorkspacePages.PathPageMatchesClientFetch | pmrapp/server/src/http/workspace.rs:83-98 | the client's own fetch of that resource delivers content, and that content leaves the embedded path-page state unchanged |
| ClientApp.Init | pmrapp/client/src/app/mod.rs:70-102 | start-up does nothing exactly for an app without a resource; otherwise it records the resource in history and listens for history navigation; it never fetches; for a set resource the effects are exactly the history replacement followed by the listener |
| ClientApp.Default | pmrapp/client/src/app/mod.rs:58-66 | the fallback state is idle, loading, about no resource, and starts nothing |
| ClientApp.FetchFor | pmrapp/client/src/app/mod.rs:148-175 | each resource leads to exactly one fetch, tagged with that resource and asking for the workspace, commit and path it names, except `Unset`, which fetches nothing |
| ClientApp.UpdateResource | pmrapp/client/src/app/mod.rs:148-175 | making a resource current marks the page loading, keeps its content, and issues exactly that resource's fetch |
| ClientApp.Update | pmrapp/client/src/app/mod.rs:146-206 | navigation makes the named resource current and loading; content is taken only when tagged with the current resource; an error only stops loading; only navigation changes the resource; a retrieval pushes its URL and then issues exactly the resource's fetch, a history change issues only the fetch; accepted content scrolls to the top; every fetch issued is tagged with the new current resource |
| ClientApp.RunFollowsLastNavigation | pmrapp/client/src/app/mod.rs:177-206 | after any sequence of messages the page is about the resource named by the last navigation message |
| ClientApp.StaleResponseIsDropped | pmrapp/client/src/app/mod.rs:185-196 | after navigating to a newer resource, an answer for an older one changes nothing, while the newer one's answer completes the page |
| ClientApp.HistoryReplaysRetrieve | pmrapp/client/src/app/mod.rs:179-205 | a history navigation reaches the same state as the navigation that pushed the entry and issues the same fetch, without pushing again |
| ClientApp.HomeLinkClass | pmrapp/client/src/app/mod.rs:109-112 | the Home link is active exactly on the homepage |
| ClientApp.ListingLinkClass | pmrapp/client/src/app/mod.rs:120-125 | the listing link is active exactly on the listing and on pages inside a workspace |
| ClientApp.HeaderHighlightsOneLink | pmrapp/client/src/app/mod.rs:109-125 | at most one header link is active, and exactly one once a resource is set |
| ClientApp.LoadingIndicatorClass | pmrapp/client/src/app/mod.rs:232-242 | the indicator reads `loading` exactly while loading and `loaded` otherwise |
| ClientApp.WithHomepage | pmrapp/client/src/app/mod.rs:246-252 | the homepage state is settled on the homepage with its content |
| ClientApp.WithWorkspaceListing | pmrapp/client/src/app/mod.rs:254-260 | the listing state is settled on the listing with that listing as content |
| ClientApp.WithWorkspaceTop | pmrapp/client/src/app/mod.rs:262-272 | the top state is settled on the workspace's top with the record and optional path info as content |
| ClientApp.WithWorkspacePathinfo | pmrapp/client/src/app/mod.rs:274-285 | the path state is settled on exactly the given coordinates with the path info as content |
| ClientApp.InitialisationRules | pmrapp/client/src/app/mod.rs:58-102 | the default state is idle, loading and about nothing, and starts nothing; a settled state takes over history and fetches nothing on start |
| ClientApp.RedeliveryIsIdempotent | pmrapp/client/src/app/mod.rs:185-191 | delivering again the content a settled page shows, for its own resource, leaves the page unchanged |
| ClientFetch.FetchWorkspaceAnswer | pmrapp/client/src/app/mod.rs:314-356 | fetching a workspace delivers content exactly when its top record is served; path info is delivered with it exactly when the record names a head commit and the JSON path info at that commit is served, and it is that path info; a failing top record, and only that, is answered with a request error carrying the client's own failure text |
| ClientFetch.Answer | pmrapp/client/src/app/mod.rs:289-384 | exactly the fetch effects are answered, each answer carrying content is tagged with the fetch's target, listing and path fetches deliver exactly what the API serves, or else a request error carrying the client's own failure text, and a workspace fetch answers as `FetchWorkspaceAnswer` |
| ClientFetch.FetchAnswerIsShown | pmrapp/client/src/app/mod.rs:146-206 | the answer to a fetch a message started, arriving before further navigation, completes the page; an error answer only stops loading |
| LegacyClientApp.ItemToUrl | client/src/app/mod.rs:84-86 | a workspace URL lies under the `/workspace/` prefix and is longer than it |
| LegacyClientApp.ListingToUrl | client/src/app/mod.rs:66-68 | the listing URL is read back as the listing and never as a workspace |
| LegacyClientApp.ListingFromUrl | client/src/app/mod.rs:70-75 | a URL names the listing exactly when it is `/workspace/` |
| LegacyClientApp.ItemFromUrl | client/src/app/mod.rs:88-101 | only URLs under the `/workspace/` prefix are read as workspace ids |
| LegacyClientApp.ListingCodec | client/src/app/mod.rs:64-76 | the listing URL parses as the listing, and it is the only URL that does |
| LegacyClientApp.ItemReadsThirdPiece | client/src/app/mod.rs:88-101 | below the prefix, exactly the piece before the next `/` is parsed as the id |
| LegacyClientApp.ItemReadsIdPiece | client/src/app/mod.rs:88-101 | an id piece followed by `/` is read whatever comes after it |
| LegacyClientApp.ItemRoundTrip | client/src/app/mod.rs:82-102 | every workspace id, negative ones and the extremes included, survives being printed into a URL and parsed back |
| LegacyClientApp.ListingIsNoItem | client/src/app/mod.rs:64-101 | the listing URL names no workspace, so no URL is read both as the listing and as a workspace |
| LegacyClientApp.TrailingPiecesIgnored | client/src/app/mod.rs:88-101 | `/workspace/7/file/x` names workspace 7 |
| LegacyClientApp.LeadingZerosAccepted | client/src/app/mod.rs:88-101 | `/workspace/007/` names workspace 7, so several URLs name the same workspace |
| LegacyClientApp.OtherPrefixRefused | client/src/app/mod.rs:89 | `/workspaces/7/` names no workspace |
| LegacyClientApp.Init | client/src/app/mod.rs:107-136 | start-up does nothing for the fallback state; otherwise it listens for history navigation, and fetches the listing exactly when there is no content yet, the listener coming first |
| LegacyClientApp.Default | client/src/app/mod.rs:46-54 | the fallback state is idle, loading, labelled `Default`, and starts nothing |
| LegacyClientApp.FetchForUrl | client/src/app/mod.rs:189-203 | the listing URL fetches the listing, a workspace URL fetches that workspace, and any other URL fetches nothing |
| LegacyClientApp.Update | client/src/app/mod.rs:163-205 | only received content changes the content and stops loading; an error only stops loading; fetch messages push their URL and fetch; a URL change fetches what the URL names; received content only scrolls to the top; the label never changes |
| LegacyClientApp.HistoryReplaysFetch | client/src/app/mod.rs:166-203 | returning through history to a URL the client pushed repeats the fetch that pushed it |
| LegacyClientApp.WithWorkspaceListing | client/src/app/mod.rs:226-232 | the listing state has that listing as complete content, is not loading, and only listens for history on start |
| LegacyClientApp.WithWorkspace | client/src/app/mod.rs:234-240 | the workspace state has that object info as complete content, is not loading, and only listens for history on start |
| LegacyClientApp.DefaultIsInert | client/src/app/mod.rs:46-54 | the fallback state is idle, loading, labelled `Default`, and starts nothing |
| LegacyWorkspaceApi.ApiWorkspacePathinfo | server/src/http/api/workspace.rs:45-79 | object info is served exactly when the workspace is known and the resolver answers with some info; an unknown workspace, a node outside the path space and every resolver error are `NotFound` |
| LegacyWorkspaceApi.Dispatch | server/src/http/api/workspace.rs:24-43 | the listing route serves the store's rows exactly when the store's query succeeds, and its converted failure otherwise; both root routes serve the resolution with no commit and no path; the commit/path route forwards both captures; every path-info failure is `NotFound` |
| LegacyWorkspaceApi.RootRoutesAgree | server/src/http/api/workspace.rs:32-35 | a workspace's root and its `file/` root answer identically, with the resolution for neither commit nor path |

## Left out

- The metadata store, the git repository and the path resolver (`PmrBackendWR`, `GitPmrAccessor`, `WorkspaceBackend`) are not modelled. Each is a fixed answer held by the `Context`. Their own behaviour, such as tree walking, sub-repository detection and SQL, is outside this model.
- `WorkspacePathInfo::from(&WorkspaceGitResult)` is a library projection whose source is not part of this model. The model keeps the workspace and the resolver result it is built from.
- `<Option<ObjectInfo>>::from(result)` in the older API is a library conversion. The older resolver is modelled as answering an optional `ObjectInfo` directly.
- JSON (de)serialization and the HTTP round trip between client and server are left out. `ClientFetch` calls the API handlers directly, so transport errors are not modelled.
- The older server's `Error` type (`server/src/http/error.rs`) is not part of this model. The older API uses the newer error type, and the listing's `?` uses the same conversions.
- HTML rendering (`page::index`, `view`, `view_content`, the `Content::view` bodies in `client/src/app/content.rs`, CSS) is left out. Only the decisions that feed the markup are modelled: the header link classes, the loading indicator class and the embedded client state.
- Browser plumbing is not modelled: `spawn_local`, `Cmd` batching, event listeners, `window.history`, `scroll_to_top`, reading the pathname on pop-state. Each is an `Effect` value or a message field.
- The client's `ServerError` (a reqwest or serde failure) is reduced to its display text, and it is only logged.
- ClientFetch.Answer and ClientFetch.FetchWorkspaceAnswer take that display text as a parameter, `failure`, and do not compute it. The server's error responses have an empty body (`pmrapp/server/src/http/error.rs:43-49`), so the text comes from the client's HTTP and JSON libraries, which are not modelled. The contracts state that every failed request is reported with that text, but not what the text says.
- Logging (`log::info!`, `log::error!`, `log::trace!`) is not modelled, except for the logged flag of `IntoResponse`.
- The non-browser `update` stubs (`pmrapp/client/src/app/mod.rs:141-144`, `client/src/app/mod.rs:157-160`) return no command and leave the state alone. They are not modelled separately.
- The HTML router (`pmrapp/server/src/http/workspace.rs:31-38`) and the server start-up (`main.rs`, `serve`) are not modelled. Each route there calls exactly one handler, and each handler is modelled.
- A pop-state event whose history state does not deserialize makes the newer client panic (`pmrapp/client/src/app/mod.rs:86-91`). The model assumes the state is always a `Resource`.
- WorkspacePages.RawPathinfo: `Vec<u8>`'s `write` cannot fail. The failure is kept as a `writeFails` parameter, so the `Error::Error` branch stays visible.
- The variant the source calls `Error::Error` is named `Internal` in the model.
- The raw download can answer 500 in two cases: the buffer write fails, or the repository does not open (`pmrapp/server/src/http/workspace.rs:112-116`). `RawPathinfo`'s contract states both cases.
- The newer client's URL builder for API requests (`pmrapp/client/src/api.rs`) is not part of this model. A path fetch is assumed to reach the commit/path route with both the commit and the path, even for the empty path that the commit page stores; a URL ending in `/file/<commit>/` might instead reach the commit route with no path.
- The handlers answer with `IntoResponse` as written, so a `BadRequest` would be answered with 500 (see Findings). `CorrectedIntoResponse` is stated alongside it; no handler here raises `BadRequest`, so the two agree on every response the model produces.
- Integer widths: workspace ids are `i64` (a subset type) and status codes are unbounded integers. No arithmetic in the core wraps.

## Findings

| source | as written | input that shows it | evidently intended | confidence | as-written member | corrected member |
|---|---|---|---|---|---|---|
| pmrapp/server/src/http/error.rs:9-10,30-36 | `status_code` has no arm for `BadRequest`, so it falls into the catch-all and is answered with 500 | `Error::BadRequest`, whose message is "400 Bad Request" | `BadRequest` is answered with 400, the status its message announces, like the other three client errors | not executed; no handler here raises `BadRequest` | ServerError.BadRequestStatusDisagreesWithMessage, ServerError.ResponseMatchesMessageUnlessBadRequest | ServerError.StatusCodeMatchesMessage, ServerError.CorrectedIntoResponse |

=== FILE: client_app.dfy ===
/** The newer browser client's application state: which resource the page is
    showing, the content fetched for it, and whether a fetch is outstanding. The
    transition function answers each message with the new state and the effects
    the browser runtime then performs (history updates, fetches, scrolling). */
module ClientApp {
  import opened Wrappers
  import opened Text
  import M = Model

  /** What the page is about. */
  datatype Resource =
    | Unset
    | Homepage
    | WorkspaceListing
    | WorkspaceTop(workspaceId: i64)
    | WorkspacePathInfo(workspaceId: i64, commitId: string, path: string)

  /** What a page can show, one shape per resource. */
  datatype Content =
    | HomepageContent
    | ListingContent(records: M.WorkspaceRecords)
    | TopContent(record: M.JsonWorkspaceRecord, headInfo: Option<M.WorkspacePathInfo>)
    | PathInfoContent(info: M.WorkspacePathInfo)

  datatype Msg =
    | Retrieve(resource: Resource, url: string)
    | ReceivedContent(resource: Resource, content: Content)
    | RequestError(reason: string)
    | UrlChanged(resource: Resource, url: string)

  datatype App = App(content: M.FetchStatus<Content>, isLoading: bool, resource: Resource)

  /** What the browser runtime is asked to do. Every fetch carries the resource
      it was issued for, and its answer comes back tagged with it. */
  datatype Effect =
    | PushState(state: Resource, url: string)
    | ReplaceState(state: Resource)
    | ListenPopState
    | ScrollToTop
    | FetchHomepage(target: Resource)
    | FetchWorkspaceListing(target: Resource)
    | FetchWorkspace(target: Resource, workspaceId: i64)
    | FetchWorkspacePathInfo(target: Resource, workspaceId: i64, commitId: string, path: string)
  {
    predicate IsFetch() {
      FetchHomepage? || FetchWorkspaceListing? || FetchWorkspace? || FetchWorkspacePathInfo?
    }
  }

  datatype Step = Step(app: App, effects: seq<Effect>)

  /** The state a page starts from when no server state could be read. */
  function Default(): (app: App)
    ensures app.content.Idle? && app.isLoading && app.resource.Unset?
    ensures Init(app) == []
  {
    App(M.Idle, true, Unset)
  }

  /** `init`: nothing for an app without a resource; otherwise record the
      resource as the current history entry's state and listen for history
      navigation. */
  function Init(app: App): (effects: seq<Effect>)
    ensures effects == [] <==> app.resource.Unset?
    ensures !app.resource.Unset? ==> ReplaceState(app.resource) in effects && ListenPopState in effects
    ensures !app.resource.Unset? ==> effects == [ReplaceState(app.resource), ListenPopState]
    ensures forall e :: e in effects ==> !e.IsFetch()
  {
    if app.resource == Unset then [] else [ReplaceState(app.resource), ListenPopState]
  }

  /** The fetch `update_resource` issues for a resource: exactly one fetch,
      tagged with that resource and asking for what it names, except for
      `Unset`, which fetches nothing. */
  function FetchFor(r: Resource): (effects: seq<Effect>)
    ensures effects == [] <==> r.Unset?
    ensures |effects| <= 1
    ensures forall e :: e in effects ==> e.IsFetch() && e.target == r
    ensures forall e :: e in effects ==>
      && (e.FetchHomepage? <==> r.Homepage?)
      && (e.FetchWorkspaceListing? <==> r.WorkspaceListing?)
      && (e.FetchWorkspace? ==> r == WorkspaceTop(e.workspaceId))
      && (e.FetchWorkspacePathInfo? ==> r == WorkspacePathInfo(e.workspaceId, e.commitId, e.path))
  {
    match r
    case Homepage => [FetchHomepage(r)]
    case WorkspaceListing => [FetchWorkspaceListing(r)]
    case WorkspaceTop(id) => [FetchWorkspace(r, id)]
    case WorkspacePathInfo(id, commit, path) => [FetchWorkspacePathInfo(r, id, commit, path)]
    case Unset => []
  }

  /** The `update_resource` closure: make `r` current, mark the page loading,
      and fetch `r`. */
  function UpdateResource(app: App, r: Resource): (s: Step)
    ensures s.app.resource == r && s.app.isLoading && s.app.content == app.content
    ensures s.effects == FetchFor(r)
    ensures forall e :: e in s.effects ==> e.IsFetch() && e.target == r
  {
    Step(App(app.content, true, r), FetchFor(r))
  }

  /** `update` (the browser build). */
  function Update(app: App, msg: Msg): (s: Step)
    ensures (msg.Retrieve? || msg.UrlChanged?) ==>
      s.app == App(app.content, true, msg.resource)
    ensures msg.Retrieve? ==> s.effects == [PushState(msg.resource, msg.url)] + FetchFor(msg.resource)
    ensures msg.UrlChanged? ==> s.effects == FetchFor(msg.resource)
    ensures msg.ReceivedContent? && msg.resource == app.resource ==>
      s == Step(App(M.Complete(msg.content), false, app.resource), [ScrollToTop])
    ensures msg.ReceivedContent? && msg.resource != app.resource ==> s == Step(app, [])
    ensures msg.RequestError? ==> s == Step(App(app.content, false, app.resource), [])
    ensures s.app.content != app.content ==>
      msg.ReceivedContent? && msg.resource == app.resource && s.app.content == M.Complete(msg.content)
    ensures s.app.resource != app.resource ==> msg.Retrieve? || msg.UrlChanged?
    ensures forall e :: e in s.effects && e.IsFetch() ==> e.target == s.app.resource
  {
    match msg
    case Retrieve(r, url) =>
      var step := UpdateResource(app, r);
      Step(step.app, [PushState(r, url)] + step.effects)
    case ReceivedContent(r, content) =>
      if r == app.resource then Step(App(M.Complete(content), false, app.resource), [ScrollToTop])
      else Step(app, [])
    case RequestError(_) =>
      Step(App(app.content, false, app.resource), [])
    case UrlChanged(r, _) =>
      UpdateResource(app, r)
  }

  /** The state after a sequence of messages, in order. */
  function Run(app: App, msgs: seq<Msg>): App
    decreases |msgs|
  {
    if |msgs| == 0 then app else Run(Update(app, msgs[0]).app, msgs[1..])
  }

  /** The resource named by the last navigation message, or `initial` when
      there is none. */
  function LastNavigation(initial: Resource, msgs: seq<Msg>): Resource
    decreases |msgs|
  {
    if |msgs| == 0 then initial
    else
      var m := msgs[|msgs| - 1];
      if m.Retrieve? || m.UrlChanged? then m.resource else LastNavigation(initial, msgs[..|msgs| - 1])
  }

  lemma {:induction false} RunSnoc(app: App, msgs: seq<Msg>, m: Msg)
    ensures Run(app, msgs + [m]) == Update(Run(app, msgs), m).app
    decreases |msgs|
  {
    if |msgs| == 0 {
      assert (msgs + [m])[1..] == [];
    } else {
      assert (msgs + [m])[1..] == msgs[1..] + [m];
      RunSnoc(Update(app, msgs[0]).app, msgs[1..], m);
    }
  }

  /** After any sequence of messages the page is about the resource the last
      navigation named: responses and errors never change it. */
  lemma {:induction false} RunFollowsLastNavigation(app: App, msgs: seq<Msg>)
    ensures Run(app, msgs).resource == LastNavigation(app.resource, msgs)
    decreases |msgs|
  {
    if |msgs| > 0 {
      var init, m := msgs[..|msgs| - 1], msgs[|msgs| - 1];
      assert msgs == init + [m];
      RunSnoc(app, init, m);
      RunFollowsLastNavigation(app, init);
    }
  }

  /** A response is shown only if it answers the page's current resource: once
      the page has moved on to `newer`, the answer for an `older` resource
      changes nothing, while the answer for `newer` completes the page. */
  lemma StaleResponseIsDropped(app: App, older: Resource, newer: Resource, url: string, c: Content)
    requires older != newer
    ensures
      var navigated := Update(app, Retrieve(newer, url)).app;
      && Update(navigated, ReceivedContent(older, c)) == Step(navigated, [])
      && Update(navigated, ReceivedContent(newer, c)).app == App(M.Complete(c), false, newer)
  {
  }

  /** Going back or forward in history to an entry pushed by `Retrieve(r, url)`
      reaches the same state and issues the same fetch, without pushing again. */
  lemma HistoryReplaysRetrieve(app: App, r: Resource, url: string)
    ensures Update(app, UrlChanged(r, url)).app == Update(app, Retrieve(r, url)).app
    ensures Update(app, Retrieve(r, url)).effects == [PushState(r, url)] + Update(app, UrlChanged(r, url)).effects
  {
  }

  /** Class of the "Home" header link. */
  function HomeLinkClass(r: Resource): (cls: string)
    ensures cls == "active" <==> r.Homepage?
    ensures cls != "active" ==> cls == ""
  {
    match r
    case Homepage => "active"
    case _ => ""
  }

  /** Class of the "Workspace Listing" header link: active on the listing and on
      every page inside a workspace. */
  function ListingLinkClass(r: Resource): (cls: string)
    ensures cls == "active" <==> r.WorkspaceListing? || r.WorkspaceTop? || r.WorkspacePathInfo?
    ensures cls != "active" ==> cls == ""
  {
    match r
    case WorkspaceListing => "active"
    case WorkspaceTop(_) => "active"
    case WorkspacePathInfo(_, _, _) => "active"
    case _ => ""
  }

  /** At most one header link is active, and exactly one once a resource is set. */
  lemma HeaderHighlightsOneLink(r: Resource)
    ensures !(HomeLinkClass(r) == "active" && ListingLinkClass(r) == "active")
    ensures (HomeLinkClass(r) == "active" || ListingLinkClass(r) == "active") <==> !r.Unset?
  {
  }

  /** Class of the loading indicator. */
  function LoadingIndicatorClass(app: App): (cls: string)
    ensures cls in {"loading", "loaded"}
    ensures cls == "loading" <==> app.isLoading
  {
    if app.isLoading then "loading" else "loaded"
  }

  /** A page rendered with its content in place: complete, not loading, and
      about some resource. */
  predicate Settled(app: App) {
    app.content.Complete? && !app.isLoading && !app.resource.Unset?
  }

  function WithHomepage(): (app: App)
    ensures Settled(app) && app.resource == Homepage && app.content.value == HomepageContent
  {
    App(M.Complete(HomepageContent), false, Homepage)
  }

  function WithWorkspaceListing(listing: M.WorkspaceRecords): (app: App)
    ensures Settled(app) && app.resource == WorkspaceListing && app.content.value == ListingContent(listing)
  {
    App(M.Complete(ListingContent(listing)), false, WorkspaceListing)
  }

  function WithWorkspaceTop(workspaceId: i64, record: M.JsonWorkspaceRecord, info: Option<M.WorkspacePathInfo>)
    : (app: App)
    ensures Settled(app) && app.resource == WorkspaceTop(workspaceId)
    ensures app.content.value == TopContent(record, info)
  {
    App(M.Complete(TopContent(record, info)), false, WorkspaceTop(workspaceId))
  }

  function WithWorkspacePathinfo(workspaceId: i64, commitId: string, path: string, info: M.WorkspacePathInfo)
    : (app: App)
    ensures Settled(app) && app.resource == WorkspacePathInfo(workspaceId, commitId, path)
    ensures app.content.value == PathInfoContent(info)
  {
    App(M.Complete(PathInfoContent(info)), false, WorkspacePathInfo(workspaceId, commitId, path))
  }

  /** The default page is idle, loading, about nothing, and starts nothing; a
      settled page takes over history and fetches nothing on start. */
  lemma InitialisationRules(app: App)
    ensures Default().content.Idle? && Default().isLoading && Default().resource.Unset?
    ensures Init(Default()) == []
    ensures LoadingIndicatorClass(Default()) == "loading"
    ensures Settled(app) ==> Init(app) == [ReplaceState(app.resource), ListenPopState]
  {
  }

  /** Delivering again the content a settled page already shows, for its own
      resource, leaves the page as it is. */
  lemma RedeliveryIsIdempotent(app: App)
    requires Settled(app)
    ensures Update(app, ReceivedContent(app.resource, app.content.value)).app == app
  {
  }
}

=== FILE: client_fetch.dfy ===
/** The answers the newer client's fetches dispatch back to it. The client asks
    the server's JSON API over HTTP; here each fetch calls the API handlers of
    `WorkspaceApi` directly, for the same context.

    A failed request is reported with the display text of the client's own
    error (a failure of its HTTP or JSON library). The server answers an error
    with an empty body, so that text never depends on the server's message; it
    is the parameter `failure` of the answers below. */
module ClientFetch {
  import opened Wrappers
  import opened Text
  import M = Model
  import opened ServerError
  import Api = WorkspaceApi
  import Client = ClientApp

  /** `fetch_workspace`: the top record, then (when it names a head commit) the
      path info at that commit with no path, which is optional: its failure
      still delivers the record. A failing top record is a request error. */
  function FetchWorkspaceAnswer(ctx: Api.Context, failure: string, target: Client.Resource, workspaceId: i64)
    : (m: Client.Msg)
    ensures m.ReceivedContent? <==> Api.ApiWorkspaceTop(ctx, workspaceId).Ok?
    ensures m.ReceivedContent? ==>
      var record := Api.ApiWorkspaceTop(ctx, workspaceId).value;
      && m.resource == target
      && m.content.TopContent?
      && m.content.record == record
      && (m.content.headInfo.Some? ==>
            record.headCommit.Some? &&
            Api.PathinfoWorkspaceIdCommitId(ctx, workspaceId, record.headCommit.value) == Ok(m.content.headInfo.value))
      && (record.headCommit.Some? && Api.PathinfoWorkspaceIdCommitId(ctx, workspaceId, record.headCommit.value).Ok? ==>
            m.content.headInfo.Some?)
    ensures m.RequestError? <==> Api.ApiWorkspaceTop(ctx, workspaceId).Err?
    ensures m.RequestError? ==> m.reason == failure
  {
    match Api.ApiWorkspaceTop(ctx, workspaceId)
    case Err(_) => Client.RequestError(failure)
    case Ok(record) =>
      match record.headCommit
      case None => Client.ReceivedContent(target, Client.TopContent(record, None))
      case Some(commitId) =>
        match Api.PathinfoWorkspaceIdCommitId(ctx, workspaceId, commitId)
        case Ok(info) => Client.ReceivedContent(target, Client.TopContent(record, Some(info)))
        case Err(_) => Client.ReceivedContent(target, Client.TopContent(record, None))
  }

  /** The message a fetch effect eventually dispatches; `None` for an effect that
      is not a fetch. Every answer to a fetch is tagged with the fetch's target. */
  function Answer(ctx: Api.Context, failure: string, e: Client.Effect): (m: Option<Client.Msg>)
    ensures m.Some? <==> e.IsFetch()
    ensures m.Some? && m.value.ReceivedContent? ==> m.value.resource == e.target
    ensures e.FetchHomepage? ==> m == Some(Client.ReceivedContent(e.target, Client.HomepageContent))
    ensures e.FetchWorkspaceListing? ==>
      var listing := Api.ApiWorkspace(ctx.listWorkspaces);
      && (m.value.ReceivedContent? <==> listing.Ok?)
      && (listing.Ok? ==> m.value.content == Client.ListingContent(listing.value))
      && (listing.Err? ==> m.value == Client.RequestError(failure))
    ensures e.FetchWorkspace? ==> m == Some(FetchWorkspaceAnswer(ctx, failure, e.target, e.workspaceId))
    ensures e.FetchWorkspacePathInfo? ==>
      var info := Api.ApiWorkspacePathinfo(ctx, e.workspaceId, Some(e.commitId), Some(e.path));
      && (m.value.ReceivedContent? <==> info.Ok?)
      && (info.Ok? ==> m.value.content == Client.PathInfoContent(info.value))
      && (info.Err? ==> m.value == Client.RequestError(failure))
  {
    match e
    case FetchHomepage(target) => Some(Client.ReceivedContent(target, Client.HomepageContent))
    case FetchWorkspaceListing(target) =>
      Some(match Api.ApiWorkspace(ctx.listWorkspaces)
        case Ok(records) => Client.ReceivedContent(target, Client.ListingContent(records))
        case Err(_) => Client.RequestError(failure))
    case FetchWorkspace(target, id) => Some(FetchWorkspaceAnswer(ctx, failure, target, id))
    case FetchWorkspacePathInfo(target, id, commitId, path) =>
      Some(match Api.ApiWorkspacePathinfo(ctx, id, Some(commitId), Some(path))
        case Ok(info) => Client.ReceivedContent(target, Client.PathInfoContent(info))
        case Err(_) => Client.RequestError(failure))
    case _ => None
  }

  /** The answer to a fetch that a message started is shown, if it arrives before
      any further navigation: its content completes the page and loading stops. */
  lemma FetchAnswerIsShown(ctx: Api.Context, failure: string, app: Client.App, msg: Client.Msg, e: Client.Effect)
    requires e in Client.Update(app, msg).effects && e.IsFetch()
    ensures
      var s := Client.Update(app, msg);
      var m := Answer(ctx, failure, e).value;
      && (m.ReceivedContent? ==> Client.Update(s.app, m).app == Client.App(M.Complete(m.content), false, s.app.resource))
      && (m.RequestError? ==> Client.Update(s.app, m).app == s.app.(isLoading := false))
  {
  }

  /** The resolver answers the default resolution and the resolution at the
      commit it reports with the same result. */
  predicate ResolvesHeadConsistently(ctx: Api.Context, workspace: M.Workspace) {
    match ctx.pathinfo(workspace, None, None)
    case Ok(result) => ctx.pathinfo(workspace, Some(result.commitId), None) == Ok(result)
    case Err(_) => true
  }
}

=== FILE: legacy_client_app.dfy ===
/** The older browser client: resources are addressed by URL strings, which a
    small printer/parser pair converts, and the application state carries a
    label instead of a resource. */
module LegacyClientApp {
  import opened Wrappers
  import opened Text
  import M = Model

  /** The path of the workspace listing, and the prefix of every workspace URL. */
  const WorkspacePrefix: string := "/workspace/"

  /** `WorkspaceListing::to_url`. */
  function ListingToUrl(): (url: string)
    ensures ListingFromUrl(url) == Some(())
    ensures ItemFromUrl(url) == None
  {
    assert WorkspacePrefix == WorkspacePrefix + "";
    ItemReadsThirdPiece("");
    WorkspacePrefix
  }

  /** `WorkspaceListing::from_url`: only the listing path itself. */
  function ListingFromUrl(url: string): (r: Option<()>)
    ensures r.Some? <==> url == WorkspacePrefix
  {
    if url == WorkspacePrefix then Some(()) else None
  }

  /** `WorkspaceItem::to_url`. */
  function ItemToUrl(id: i64): (url: string)
    ensures WorkspacePrefix <= url
    ensures |url| > |WorkspacePrefix|
  {
    WorkspacePrefix + FormatInt(id) + "/"
  }

  /** `WorkspaceItem::from_url`: a URL under the workspace prefix, whose third
      `/`-separated piece parses as an `i64`. */
  function ItemFromUrl(url: string): (r: Option<i64>)
    ensures r.Some? ==> WorkspacePrefix <= url
  {
    if WorkspacePrefix <= url then
      var parts := Split(url, '/');
      if |parts| >= 3 then ParseI64(parts[2]) else None
    else None
  }

  /** The listing URL codec: the printed URL is the only one accepted. */
  lemma ListingCodec(url: string)
    ensures ListingFromUrl(ListingToUrl()) == Some(())
    ensures ListingFromUrl(url).Some? <==> url == ListingToUrl()
  {
  }

  /** Below the workspace prefix, exactly the first piece of the remainder is
      read: whatever follows the next `/` is ignored. */
  lemma ItemReadsThirdPiece(rest: string)
    ensures ItemFromUrl(WorkspacePrefix + rest) == ParseI64(Split(rest, '/')[0])
  {
    var url := WorkspacePrefix + rest;
    assert url == "" + ['/'] + "workspace" + ['/'] + rest;
    SplitAfterTwoPieces("", "workspace", '/', rest);
    assert WorkspacePrefix <= url;
  }

  /** Every workspace id survives being printed into a URL and parsed back. */
  lemma ItemRoundTrip(id: i64)
    ensures ItemFromUrl(ItemToUrl(id)) == Some(id)
  {
    var digits := FormatInt(id);
    assert ItemToUrl(id) == WorkspacePrefix + (digits + ['/'] + "");
    ItemReadsThirdPiece(digits + ['/'] + "");
    SplitAfterPiece(digits, '/', "");
    ParseFormat(id);
  }

  /** The listing URL has an empty third piece, so it is no workspace; hence no
      URL is both the listing and a workspace. */
  lemma ListingIsNoItem(url: string)
    ensures ItemFromUrl(WorkspacePrefix) == None
    ensures !(ListingFromUrl(url).Some? && ItemFromUrl(url).Some?)
  {
    assert WorkspacePrefix == WorkspacePrefix + "";
    ItemReadsThirdPiece("");
  }

  /** An id piece followed by `/` is read whatever comes after it. */
  lemma ItemReadsIdPiece(id: string, tail: string)
    requires '/' !in id
    ensures ItemFromUrl(WorkspacePrefix + id + ['/'] + tail) == ParseI64(id)
  {
    assert WorkspacePrefix + id + ['/'] + tail == WorkspacePrefix + (id + ['/'] + tail);
    ItemReadsThirdPiece(id + ['/'] + tail);
    SplitAfterPiece(id, '/', tail);
  }

  /** A workspace URL with more pieces after the id still names that workspace. */
  lemma TrailingPiecesIgnored()
    ensures ItemFromUrl("/workspace/7/file/x") == Some(7)
  {
    ItemReadsIdPiece("7", "file/x");
    assert WorkspacePrefix + "7" + ['/'] + "file/x" == "/workspace/7/file/x";
    ParseSingleDigit();
  }

  lemma ParseSingleDigit()
    ensures ParseI64("7") == Some(7)
  {
    assert AllDigits("7");
    assert DigitsValue("7") == 7;
  }

  /** Leading zeros are accepted, so several URLs name the same workspace. */
  lemma LeadingZerosAccepted()
    ensures ItemFromUrl("/workspace/007/") == Some(7)
  {
    ItemReadsIdPiece("007", "");
    assert WorkspacePrefix + "007" + ['/'] + "" == "/workspace/007/";
    ParseZeroPadded();
  }

  lemma ParseZeroPadded()
    ensures ParseI64("007") == Some(7)
  {
    assert AllDigits("007");
    assert "007"[..2] == "00" && "00"[..1] == "0";
    assert DigitsValue("007") == 7;
  }

  /** A URL outside the workspace prefix names no workspace. */
  lemma OtherPrefixRefused()
    ensures ItemFromUrl("/workspaces/7/") == None
  {
    assert "/workspaces/7/"[10] != WorkspacePrefix[10];
  }

  /** What a page can show. */
  datatype Content = WorkspaceListing(records: M.WorkspaceRecords) | Workspace(info: M.ObjectInfo)

  datatype Msg =
    | FetchWorkspaceListing
    | FetchWorkspace(workspaceId: i64)
    | ReceivedContent(content: Content)
    | RequestError(reason: string)
    | UrlChanged(url: string)

  datatype App = App(content: M.FetchStatus<Content>, isLoading: bool, name: string)

  /** What the browser runtime is asked to do. */
  datatype Effect =
    | PushState(url: string)
    | ListenPopState
    | ScrollToTop
    | FetchListing
    | FetchItem(workspaceId: i64)

  datatype Step = Step(app: App, effects: seq<Effect>)

  /** The label of the state a page falls back to when no server state could be read. */
  const DefaultLabel: string := "Default"

  function Default(): (app: App)
    ensures app.content.Idle? && app.isLoading && app.name == DefaultLabel
    ensures Init(app) == []
  {
    App(M.Idle, true, DefaultLabel)
  }

  /** `init`: nothing for the fallback state; otherwise listen for history
      navigation, and fetch the listing when there is no content yet. */
  function Init(app: App): (effects: seq<Effect>)
    ensures app.name == DefaultLabel ==> effects == []
    ensures app.name != DefaultLabel ==>
      && ListenPopState in effects
      && (FetchListing in effects <==> app.content.Idle?)
      && effects[0] == ListenPopState
      && |effects| == (if app.content.Idle? then 2 else 1)
  {
    if app.name == DefaultLabel then []
    else [ListenPopState] + (if app.content.Idle? then [FetchListing] else [])
  }

  /** The fetch a URL leads to: the listing URL first, then a workspace URL,
      and nothing for any other URL. */
  function FetchForUrl(url: string): (effects: seq<Effect>)
    ensures ListingFromUrl(url).Some? ==> effects == [FetchListing]
    ensures ListingFromUrl(url).None? && ItemFromUrl(url).Some? ==> effects == [FetchItem(ItemFromUrl(url).value)]
    ensures ListingFromUrl(url).None? && ItemFromUrl(url).None? ==> effects == []
  {
    if ListingFromUrl(url).Some? then [FetchListing]
    else match ItemFromUrl(url)
      case Some(id) => [FetchItem(id)]
      case None => []
  }

  /** `update` (the browser build). */
  function Update(app: App, msg: Msg): (s: Step)
    ensures s.app.name == app.name
    ensures msg.ReceivedContent? ==> s.app.content == M.Complete(msg.content) && !s.app.isLoading
    ensures !msg.ReceivedContent? ==> s.app.content == app.content
    ensures msg.RequestError? ==> s == Step(app.(isLoading := false), [])
    ensures msg.FetchWorkspaceListing? || msg.FetchWorkspace? || msg.UrlChanged? ==> s.app.isLoading
    ensures msg.UrlChanged? ==> s.effects == FetchForUrl(msg.url)
    ensures msg.FetchWorkspace? ==> s.effects == [PushState(ItemToUrl(msg.workspaceId)), FetchItem(msg.workspaceId)]
    ensures msg.FetchWorkspaceListing? ==> s.effects == [PushState(ListingToUrl()), FetchListing]
    ensures msg.ReceivedContent? ==> s.effects == [ScrollToTop]
  {
    match msg
    case FetchWorkspaceListing =>
      Step(app.(isLoading := true), [PushState(ListingToUrl()), FetchListing])
    case FetchWorkspace(id) =>
      Step(app.(isLoading := true), [PushState(ItemToUrl(id)), FetchItem(id)])
    case ReceivedContent(content) =>
      Step(app.(content := M.Complete(content), isLoading := false), [ScrollToTop])
    case RequestError(_) =>
      Step(app.(isLoading := false), [])
    case UrlChanged(url) =>
      Step(app.(isLoading := true), FetchForUrl(url))
  }

  /** Coming back through history to a URL the client pushed repeats the fetch
      that pushed it. */
  lemma HistoryReplaysFetch(app: App, id: i64)
    ensures Update(app, UrlChanged(ItemToUrl(id))).effects == [FetchItem(id)]
    ensures Update(app, UrlChanged(ListingToUrl())).effects == [FetchListing]
  {
    ItemRoundTrip(id);
    ListingIsNoItem(ItemToUrl(id));
    assert ItemToUrl(id) != ListingToUrl() by {
      assert |ItemToUrl(id)| > |WorkspacePrefix|;
    }
  }

  function WithWorkspaceListing(listing: M.WorkspaceRecords): (app: App)
    ensures app.content == M.Complete(WorkspaceListing(listing)) && !app.isLoading
    ensures Init(app) == [ListenPopState]
  {
    App(M.Complete(WorkspaceListing(listing)), false, "with_workspace_listing")
  }

  function WithWorkspace(info: M.ObjectInfo): (app: App)
    ensures app.content == M.Complete(Workspace(info)) && !app.isLoading
    ensures Init(app) == [ListenPopState]
  {
    App(M.Complete(Workspace(info)), false, "with_workspace")
  }

  /** The fallback state is idle, loading and inert: it starts nothing, so it
      stays loading until a message arrives. */
  lemma DefaultIsInert()
    ensures Default().content.Idle? && Default().isLoading && Default().name == "Default"
    ensures Init(Default()) == []
  {
  }
}

=== FILE: legacy_workspace_api.dfy ===
/** The older server's JSON handlers for workspaces: the listing and the
    per-object info, behind a route table that sends a workspace's root and its
    `file/` root to the same resolution. */
module LegacyWorkspaceApi {
  import opened Wrappers
  import opened Text
  import M = Model
  import opened ServerError
  import Api = WorkspaceApi

  /** The application context, seen through the answers its collaborators give:
      the store's rows, the row with an id, and the resolver's object info for
      a workspace, an optional commit and an optional path (`Ok(None)` for a
      node, such as a tag, that is not part of the path space). */
  datatype Context = Context(
    listWorkspaces: Result<seq<M.Workspace>, Cause>,
    getWorkspaceById: i64 -> Result<M.Workspace, Cause>,
    processPathinfo: (M.Workspace, Option<string>, Option<string>) -> Result<Option<M.ObjectInfo>, string>)

  /** `api_workspace_pathinfo`: the resolver's object info when there is one;
      an unknown workspace, a node outside the path space and every resolver
      error are all `NotFound`. */
  function ApiWorkspacePathinfo(ctx: Context, workspaceId: i64, commit: Option<string>, path: Option<string>)
    : (r: Result<M.ObjectInfo, Error>)
    ensures r.Ok? ==>
      && ctx.getWorkspaceById(workspaceId).Ok?
      && ctx.processPathinfo(ctx.getWorkspaceById(workspaceId).value, commit, path) == Ok(Some(r.value))
    ensures ctx.getWorkspaceById(workspaceId).Ok? ==>
      var answer := ctx.processPathinfo(ctx.getWorkspaceById(workspaceId).value, commit, path);
      answer.Ok? && answer.value.Some? ==> r.Ok?
    ensures r.Err? ==> r.error == NotFound
  {
    match ctx.getWorkspaceById(workspaceId)
    case Err(_) => Err(NotFound)
    case Ok(workspace) =>
      match ctx.processPathinfo(workspace, commit, path)
      case Ok(Some(info)) => Ok(info)
      case Ok(None) => Err(NotFound)
      case Err(_) => Err(NotFound)
  }

  /** The routes of the workspace API. */
  datatype Route =
    | Listing
    | WorkspaceRoot(workspaceId: i64)
    | WorkspaceFileRoot(workspaceId: i64)
    | WorkspaceFile(workspaceId: i64, commitId: string, path: string)

  /** The JSON bodies the routes serve. */
  datatype Body = Records(records: M.WorkspaceRecords) | Info(info: M.ObjectInfo)

  /** The route table with its two arity wrappers: the workspace root and the
      `file/` root resolve with no commit and no path; the commit/path route
      forwards both captures, which are always present there. */
  function Dispatch(ctx: Context, route: Route): (r: Result<Body, Error>)
    ensures route.Listing? ==> (r.Ok? <==> ctx.listWorkspaces.Ok?)
    ensures route.Listing? && r.Ok? ==> r.value == Records(M.WorkspaceRecords(ctx.listWorkspaces.value))
    ensures route.Listing? && r.Err? ==> r.error == FromCause(ctx.listWorkspaces.error)
    ensures !route.Listing? ==> r.Err? ==> r.error == NotFound
    ensures route.WorkspaceRoot? || route.WorkspaceFileRoot? ==>
      var ws := ctx.getWorkspaceById(route.workspaceId);
      var served := ws.Ok? && ctx.processPathinfo(ws.value, None, None).Ok? && ctx.processPathinfo(ws.value, None, None).value.Some?;
      && (r.Ok? <==> served)
      && (r.Ok? ==> r.value == Info(ctx.processPathinfo(ws.value, None, None).value.value))
    ensures route.WorkspaceFile? ==>
      var ws := ctx.getWorkspaceById(route.workspaceId);
      var answer := if ws.Ok? then ctx.processPathinfo(ws.value, Some(route.commitId), Some(route.path)) else Err("");
      && (r.Ok? <==> answer.Ok? && answer.value.Some?)
      && (r.Ok? ==> r.value == Info(answer.value.value))
  {
    match route
    case Listing =>
      (match Api.ApiWorkspace(ctx.listWorkspaces)
       case Ok(records) => Ok(Records(records))
       case Err(e) => Err(e))
    case WorkspaceRoot(id) => InfoBody(ApiWorkspacePathinfo(ctx, id, None, None))
    case WorkspaceFileRoot(id) => InfoBody(ApiWorkspacePathinfo(ctx, id, None, None))
    case WorkspaceFile(id, commit, path) => InfoBody(ApiWorkspacePathinfo(ctx, id, Some(commit), Some(path)))
  }

  function InfoBody(r: Result<M.ObjectInfo, Error>): Result<Body, Error> {
    match r
    case Ok(info) => Ok(Info(info))
    case Err(e) => Err(e)
  }

  /** A workspace's root and its `file/` root are the same resource, and the
      resolution with neither commit nor path. */
  lemma RootRoutesAgree(ctx: Context, workspaceId: i64)
    ensures Dispatch(ctx, WorkspaceRoot(workspaceId)) == Dispatch(ctx, WorkspaceFileRoot(workspaceId))
    ensures Dispatch(ctx, WorkspaceRoot(workspaceId)) == InfoBody(ApiWorkspacePathinfo(ctx, workspaceId, None, None))
  {
  }
}

=== FILE: model.dfy ===
/** The shared record shapes the server handlers and the client exchange:
    workspace metadata rows, the git path resolver's answer, and the view
    records built from them. */
module Model {
  import opened Wrappers
  import opened Text

  /** A row of the metadata store. */
  datatype Workspace = Workspace(id: i64, url: string, description: Option<string>)

  /** The listing payload (`WorkspaceRecords` / `JsonWorkspaceRecords`). */
  datatype WorkspaceRecords = WorkspaceRecords(workspaces: seq<Workspace>)

  /** A workspace with the id of its default-branch head, when it has one. */
  datatype JsonWorkspaceRecord = JsonWorkspaceRecord(workspace: Workspace, headCommit: Option<string>)

  /** The kinds a git object reports (`git2::ObjectType`). */
  datatype ObjectType = Any | Commit | Tree | Blob | Tag

  /** Where a resolved path ends: an object of the workspace's own repository,
      seen through its two independent accessors `kind()` and `as_blob()`, or
      the boundary of an embedded sub-repository. */
  datatype GitResultTarget =
    | Object(kind: Option<ObjectType>, blob: Option<seq<byte>>)
    | SubRepoPath(location: string, commit: string, path: string)

  /** What the resolver answers for a (commit, path) request: the commit it
      settled on and the target it reached. */
  datatype GitResult = GitResult(commitId: string, target: GitResultTarget)

  /** The merged view of a resolution. Its field-by-field projection is built by
      a library outside this model; here it keeps the workspace and the result
      it is built from, which is all the handlers decide about. */
  datatype WorkspacePathInfo = WorkspacePathInfo(workspace: Workspace, result: GitResult)

  /** One entry of a directory listing. */
  datatype TreeEntry = TreeEntry(name: string, kind: ObjectType)

  /** The compact per-object view the older API serves. */
  datatype ObjectInfo = TreeInfo(entries: seq<TreeEntry>) | FileInfo(size: nat)

  /** Progress of the content a client page shows; both client versions use it. */
  datatype FetchStatus<T> = Idle | Complete(value: T) | Error(message: string)
}

=== FILE: server_error.dfy ===
/** The HTTP error type of the newer server: its variants, their display
    messages, the status each is answered with, and the response built from it. */
module ServerError {
  import opened Wrappers
  import opened Text

  /** Failures of the libraries the handlers call, which `?` converts into an
      `Error` through the `#[from]` conversions. */
  datatype Cause = SerdeJsonCause(detail: string) | SqlxCause(detail: string) | AnyhowCause(detail: string)

  /** The handlers' error. `Internal` is the variant the source calls `Error::Error`. */
  datatype Error =
    | BadRequest
    | Unauthorized
    | Forbidden
    | NotFound
    | Internal
    | SerdeJson(detail: string)
    | Sqlx(detail: string)
    | Anyhow(detail: string)

  /** The `#[from]` conversions. */
  function FromCause(c: Cause): (e: Error)
    ensures e.SerdeJson? || e.Sqlx? || e.Anyhow?
    ensures e.Anyhow? <==> c.AnyhowCause?
  {
    match c
    case SerdeJsonCause(d) => SerdeJson(d)
    case SqlxCause(d) => Sqlx(d)
    case AnyhowCause(d) => Anyhow(d)
  }

  /** The display message of each variant: a three-digit status code, a space
      and a reason phrase; the code opens with `4` exactly for the four client
      errors. */
  function Message(e: Error): (m: string)
    ensures |m| >= 4 && m[3] == ' ' && AllDigits(m[..3])
    ensures m[0] == '4' <==> e.BadRequest? || e.Unauthorized? || e.Forbidden? || e.NotFound?
    ensures m[0] != '4' ==> m[..3] == "500"
  {
    match e
    case BadRequest => "400 Bad Request"
    case Unauthorized => "401 Unauthorized"
    case Forbidden => "403 Forbidden"
    case NotFound => "404 Not Found"
    case _ => "500 Internal Server Error"
  }

  /** The status code a message announces: the three-digit number it opens
      with, before the first space. */
  function AnnouncedStatus(e: Error): Option<i64> {
    var m := Message(e);
    if |m| >= 4 && m[3] == ' ' then ParseI64(m[..3]) else None
  }

  /** `Error::status_code` as written: the three client-error variants it names,
      and 500 for everything else, `BadRequest` included. */
  function StatusCodeAsWritten(e: Error): (code: int)
    ensures code in {401, 403, 404, 500}
    ensures code == 401 <==> e.Unauthorized?
    ensures code == 403 <==> e.Forbidden?
    ensures code == 404 <==> e.NotFound?
  {
    match e
    case Unauthorized => 401
    case Forbidden => 403
    case NotFound => 404
    case _ => 500
  }

  /** The as-written mapping answers `BadRequest` with 500 although its message
      announces 400. */
  lemma BadRequestStatusDisagreesWithMessage()
    ensures AnnouncedStatus(BadRequest) == Some(400)
    ensures StatusCodeAsWritten(BadRequest) == 500
  {
    assert Message(BadRequest)[..3] == "400";
    ThreeDigits("400", 4, 0, 0);
  }

  /** The status code, with `BadRequest` answered by the 400 its message
      announces. */
  function StatusCode(e: Error): (code: int)
    ensures code in {400, 401, 403, 404, 500}
    ensures code == 400 <==> e.BadRequest?
    ensures code == 401 <==> e.Unauthorized?
    ensures code == 403 <==> e.Forbidden?
    ensures code == 404 <==> e.NotFound?
    ensures !e.BadRequest? ==> code == StatusCodeAsWritten(e)
  {
    if e.BadRequest? then 400 else StatusCodeAsWritten(e)
  }

  /** A three-digit numeral reads as its value. */
  lemma ThreeDigits(code: string, d0: nat, d1: nat, d2: nat)
    requires d0 < 10 && d1 < 10 && d2 < 10
    requires code == [DigitChar(d0), DigitChar(d1), DigitChar(d2)]
    ensures ParseI64(code) == Some(100 * d0 + 10 * d1 + d2)
  {
    var hundreds, tens := code[..1], code[..2];
    assert tens[..1] == hundreds;
    assert DigitsValue(hundreds) == d0;
    assert DigitsValue(tens) == 10 * d0 + d1;
    assert DigitsValue(code) == 100 * d0 + 10 * d1 + d2;
  }

  /** Every variant is answered with the status its message announces. */
  lemma StatusCodeMatchesMessage(e: Error)
    ensures AnnouncedStatus(e) == Some(StatusCode(e) as i64)
  {
    match e
    case BadRequest =>
      assert Message(e)[..3] == "400";
      ThreeDigits("400", 4, 0, 0);
    case Unauthorized =>
      assert Message(e)[..3] == "401";
      ThreeDigits("401", 4, 0, 1);
    case Forbidden =>
      assert Message(e)[..3] == "403";
      ThreeDigits("403", 4, 0, 3);
    case NotFound =>
      assert Message(e)[..3] == "404";
      ThreeDigits("404", 4, 0, 4);
    case _ =>
      ServerFailureAnnounces500(e);
  }

  /** The variants that share the generic message announce 500. */
  lemma ServerFailureAnnounces500(e: Error)
    requires !e.BadRequest? && !e.Unauthorized? && !e.Forbidden? && !e.NotFound?
    ensures AnnouncedStatus(e) == Some(500)
  {
    var m := Message(e);
    assert m == "500 Internal Server Error";
    assert m[3] == ' ';
    assert m[..3] == "500";
    ThreeDigits("500", 5, 0, 0);
  }

  /** The response an error becomes: its status, and whether it was logged. */
  datatype ErrorResponse = ErrorResponse(status: int, logged: bool)

  /** `IntoResponse for Error` as written: the as-written status with an empty
      body; only an `Anyhow` error is logged on the way out. */
  function IntoResponse(e: Error): (r: ErrorResponse)
    ensures r.status in {401, 403, 404, 500}
    ensures r.status == 401 <==> e.Unauthorized?
    ensures r.status == 403 <==> e.Forbidden?
    ensures r.status == 404 <==> e.NotFound?
    ensures r.logged <==> e.Anyhow?
  {
    ErrorResponse(StatusCodeAsWritten(e), e.Anyhow?)
  }

  /** The response carries the status its error's message announces for every
      variant but `BadRequest`. */
  lemma ResponseMatchesMessageUnlessBadRequest(e: Error)
    ensures AnnouncedStatus(e) == Some(IntoResponse(e).status as i64) <==> !e.BadRequest?
  {
    StatusCodeMatchesMessage(e);
    if e.BadRequest? {
      BadRequestStatusDisagreesWithMessage();
    }
  }

  /** The response built on the corrected status: every variant, `BadRequest`
      included, is answered with the status its message announces, and the
      response differs from the as-written one only for `BadRequest`. */
  function CorrectedIntoResponse(e: Error): (r: ErrorResponse)
    ensures r.status in {400, 401, 403, 404, 500}
    ensures AnnouncedStatus(e) == Some(r.status as i64)
    ensures r.logged <==> e.Anyhow?
    ensures r == IntoResponse(e) <==> !e.BadRequest?
  {
    StatusCodeMatchesMessage(e);
    ErrorResponse(StatusCode(e), e.Anyhow?)
  }

  /** The errors the handlers can actually raise: `NotFound`, the internal
      failure, or a converted library failure. */
  predicate Raisable(e: Error) {
    e.NotFound? || e.Internal? || e.SerdeJson? || e.Sqlx? || e.Anyhow?
  }

  /** A raisable error is answered with 404 exactly when it is `NotFound`, and
      with 500 otherwise. */
  lemma RaisableStatus(e: Error)
    requires Raisable(e)
    ensures IntoResponse(e).status in {404, 500}
    ensures IntoResponse(e).status == 404 <==> e.NotFound?
  {
  }
}

=== FILE: text.dfy ===
/** The Rust standard-library string behaviour the core relies on: `str::split`
    with a one-character pattern, `{}` formatting of an integer, `str::parse::<i64>`
    and `String::into_bytes` (UTF-8). Each routine is paired with its inverse. */
module Text {
  import opened Wrappers

  const I64_MIN: int := -0x8000_0000_0000_0000
  const I64_MAX: int := 0x7FFF_FFFF_FFFF_FFFF

  /** Rust's `i64`. */
  type i64 = x: int | -0x8000_0000_0000_0000 <= x <= 0x7FFF_FFFF_FFFF_FFFF

  /** Rust's `u8`. */
  type byte = x: int | 0 <= x < 0x100

  // ---------------------------------------------------------------------------
  // str::split with a single-character pattern
  // ---------------------------------------------------------------------------

  /** The pieces of `s` between occurrences of `sep`, as `s.split(sep)` yields
      them: there is always at least one piece, and a leading, trailing or
      doubled separator yields an empty piece. */
  function Split(s: string, sep: char): (parts: seq<string>)
    ensures |parts| >= 1
    ensures forall i :: 0 <= i < |parts| ==> sep !in parts[i]
    decreases |s|
  {
    if |s| == 0 then [""]
    else
      var rest := Split(s[1..], sep);
      if s[0] == sep then [""] + rest
      else [[s[0]] + rest[0]] + rest[1..]
  }

  /** The pieces glued back together with `sep` between neighbours. */
  function Join(parts: seq<string>, sep: char): string
    requires |parts| >= 1
  {
    if |parts| == 1 then parts[0] else parts[0] + [sep] + Join(parts[1..], sep)
  }

  /** Splitting loses nothing: joining the pieces gives back the input. */
  lemma {:induction false} JoinSplit(s: string, sep: char)
    ensures Join(Split(s, sep), sep) == s
    decreases |s|
  {
    if |s| > 0 {
      var rest := Split(s[1..], sep);
      JoinSplit(s[1..], sep);
      if s[0] == sep {
        JoinAfterEmpty(rest, sep);
        assert s == [sep] + s[1..];
      } else {
        JoinExtendFirst(s[0], rest, sep);
        assert s == [s[0]] + s[1..];
      }
    }
  }

  /** An empty leading piece contributes only its separator. */
  lemma JoinAfterEmpty(rest: seq<string>, sep: char)
    requires |rest| >= 1
    ensures Join([""] + rest, sep) == [sep] + Join(rest, sep)
  {
    assert ([""] + rest)[1..] == rest;
  }

  /** A character put in front of the first piece comes first in the join. */
  lemma JoinExtendFirst(c: char, rest: seq<string>, sep: char)
    requires |rest| >= 1
    ensures Join([[c] + rest[0]] + rest[1..], sep) == [c] + Join(rest, sep)
  {
    var parts := [[c] + rest[0]] + rest[1..];
    if |rest| > 1 {
      assert parts[1..] == rest[1..];
    }
  }

  /** A piece free of the separator is split off whole. */
  lemma {:induction false} SplitAfterPiece(w: string, sep: char, t: string)
    requires sep !in w
    ensures Split(w + [sep] + t, sep) == [w] + Split(t, sep)
    decreases |w|
  {
    var s := w + [sep] + t;
    if |w| == 0 {
      assert s[1..] == t;
    } else {
      assert s[1..] == w[1..] + [sep] + t;
      SplitAfterPiece(w[1..], sep, t);
      assert [s[0]] + w[1..] == w;
    }
  }

  /** Two separator-free pieces in front are split off one after the other. */
  lemma SplitAfterTwoPieces(a: string, b: string, sep: char, t: string)
    requires sep !in a && sep !in b
    ensures Split(a + [sep] + b + [sep] + t, sep) == [a, b] + Split(t, sep)
  {
    assert a + [sep] + b + [sep] + t == a + [sep] + (b + [sep] + t);
    SplitAfterPiece(a, sep, b + [sep] + t);
    SplitAfterPiece(b, sep, t);
  }

  /** A string without the separator is a single piece. */
  lemma {:induction false} SplitWithoutSeparator(w: string, sep: char)
    requires sep !in w
    ensures Split(w, sep) == [w]
    decreases |w|
  {
    if |w| > 0 {
      SplitWithoutSeparator(w[1..], sep);
      assert [w[0]] + w[1..] == w;
    }
  }

  /** Joining separator-free pieces and splitting again gives the pieces back. */
  lemma {:induction false} SplitJoin(parts: seq<string>, sep: char)
    requires |parts| >= 1
    requires forall i :: 0 <= i < |parts| ==> sep !in parts[i]
    ensures Split(Join(parts, sep), sep) == parts
    decreases |parts|
  {
    if |parts| == 1 {
      SplitWithoutSeparator(parts[0], sep);
    } else {
      SplitJoin(parts[1..], sep);
      SplitAfterPiece(parts[0], sep, Join(parts[1..], sep));
      assert [parts[0]] + parts[1..] == parts;
    }
  }

  // ---------------------------------------------------------------------------
  // Decimal digits
  // ---------------------------------------------------------------------------

  predicate IsDigit(c: char) {
    '0' <= c <= '9'
  }

  predicate AllDigits(s: string) {
    forall i :: 0 <= i < |s| ==> IsDigit(s[i])
  }

  function DigitValue(c: char): nat
    requires IsDigit(c)
  {
    c as int - '0' as int
  }

  function DigitChar(d: nat): (c: char)
    requires d < 10
    ensures IsDigit(c) && DigitValue(c) == d
  {
    ('0' as int + d) as char
  }

  /** The number a string of decimal digits denotes, most significant first. */
  function DigitsValue(ds: string): nat
    requires AllDigits(ds)
    decreases |ds|
  {
    if |ds| == 0 then 0
    else 10 * DigitsValue(ds[..|ds| - 1]) + DigitValue(ds[|ds| - 1])
  }

  /** The shortest decimal numeral for `n`: never empty, and without a leading
      zero unless `n` is zero. */
  function NatDigits(n: nat): (ds: string)
    ensures |ds| >= 1 && AllDigits(ds)
    ensures DigitsValue(ds) == n
    ensures ds[0] == '0' ==> n == 0
    decreases n
  {
    if n < 10 then [DigitChar(n)]
    else
      var prefix := NatDigits(n / 10);
      var ds := prefix + [DigitChar(n % 10)];
      assert ds[..|ds| - 1] == prefix;
      ds
  }

  // ---------------------------------------------------------------------------
  // `{}` formatting of an integer and `str::parse::<i64>`
  // ---------------------------------------------------------------------------

  /** `format!("{}", n)`: a minus sign for negative values, then the shortest
      decimal numeral of the magnitude. */
  function FormatInt(n: int): (s: string)
    ensures |s| >= 1
    ensures s[0] == '-' <==> n < 0
    ensures forall i :: 0 <= i < |s| ==> IsDigit(s[i]) || (i == 0 && s[i] == '-')
  {
    if n < 0 then "-" + NatDigits(-n) else NatDigits(n)
  }

  /** The digits of a numeral after its optional sign. */
  function UnsignedPart(s: string): string
    requires |s| >= 1
  {
    if s[0] == '+' || s[0] == '-' then s[1..] else s
  }

  /** A decimal numeral: an optional `+` or `-`, then at least one digit;
      leading zeros are allowed. */
  predicate IsNumeral(s: string) {
    |s| >= 1 && |UnsignedPart(s)| >= 1 && AllDigits(UnsignedPart(s))
  }

  function Signed(negative: bool, magnitude: nat): int {
    if negative then -(magnitude as int) else magnitude
  }

  /** The integer a numeral denotes. */
  function NumeralValue(s: string): int
    requires IsNumeral(s)
  {
    Signed(s[0] == '-', DigitsValue(UnsignedPart(s)))
  }

  /** The digit loop of `i64::from_str`: starting from zero, each digit is
      folded in by a checked multiply by ten and a checked add (or, for a
      negative numeral, a checked subtract), and the first overflow fails the
      parse. Checking the combined step is the same as checking the two steps,
      because both move away from zero in the same direction. */
  function Accumulate(digits: string, negative: bool, i: nat, acc: i64): Option<i64>
    requires AllDigits(digits) && i <= |digits|
    decreases |digits| - i
  {
    if i == |digits| then Some(acc)
    else
      var d := DigitValue(digits[i]);
      var next: int := if negative then acc * 10 - d else acc * 10 + d;
      if I64_MIN <= next <= I64_MAX then Accumulate(digits, negative, i + 1, next) else None
  }

  /** A prefix of a digit string never denotes more than the whole string. */
  lemma {:induction false} PrefixValueAtMost(ds: string, i: nat)
    requires AllDigits(ds) && i <= |ds|
    ensures AllDigits(ds[..i]) && DigitsValue(ds[..i]) <= DigitsValue(ds)
    decreases |ds| - i
  {
    if i == |ds| {
      assert ds[..i] == ds;
    } else {
      PrefixValueAtMost(ds, i + 1);
      assert ds[..i + 1][..i] == ds[..i];
    }
  }

  /** The checked accumulation computes the signed value of the digits, and
      fails exactly when that value is outside the `i64` range. */
  lemma {:induction false} AccumulateValue(digits: string, negative: bool, i: nat, acc: i64)
    requires AllDigits(digits) && i <= |digits|
    requires AllDigits(digits[..i]) && acc as int == Signed(negative, DigitsValue(digits[..i]))
    ensures
      var v := Signed(negative, DigitsValue(digits));
      Accumulate(digits, negative, i, acc) == if I64_MIN <= v <= I64_MAX then Some(v) else None
    decreases |digits| - i
  {
    if i == |digits| {
      assert digits[..i] == digits;
    } else {
      PrefixValueAtMost(digits, i + 1);
      assert digits[..i + 1][..i] == digits[..i];
      var next := Signed(negative, DigitsValue(digits[..i + 1]));
      if I64_MIN <= next <= I64_MAX {
        AccumulateValue(digits, negative, i + 1, next);
      }
    }
  }

  /** `s.parse::<i64>()`: the sign, then the checked digit loop; an empty
      string, a lone sign and any other character are rejected. */
  function ParseI64(s: string): (r: Option<i64>)
    ensures r.Some? <==> IsNumeral(s) && I64_MIN <= NumeralValue(s) <= I64_MAX
    ensures r.Some? ==> r.value == NumeralValue(s)
    ensures r.Some? ==> forall i :: 0 <= i < |s| ==> IsDigit(s[i]) || (i == 0 && (s[i] == '+' || s[i] == '-'))
  {
    if |s| == 0 then None
    else if (s[0] == '+' || s[0] == '-') && |s| == 1 then None
    else
      var negative := s[0] == '-';
      var digits := if s[0] == '+' || negative then s[1..] else s;
      if !AllDigits(digits) then None
      else
        assert digits[..0] == "";
        AccumulateValue(digits, negative, 0, 0);
        Accumulate(digits, negative, 0, 0)
  }

  /** A leading zero does not change the value of a digit string. */
  lemma {:induction false} LeadingZeroValue(ds: string)
    requires AllDigits(ds)
    ensures AllDigits("0" + ds) && DigitsValue("0" + ds) == DigitsValue(ds)
    decreases |ds|
  {
    var z := "0" + ds;
    if |ds| > 0 {
      LeadingZeroValue(ds[..|ds| - 1]);
      assert z[..|z| - 1] == "0" + ds[..|ds| - 1];
    }
  }

  /** Padding with zeros and an explicit `+` are all accepted, with the same
      value as the bare digits; a `-` negates it. */
  lemma PaddedNumeralsAccepted(ds: string)
    requires |ds| >= 1 && AllDigits(ds) && DigitsValue(ds) <= I64_MAX
    ensures ParseI64(ds) == Some(DigitsValue(ds))
    ensures ParseI64("0" + ds) == Some(DigitsValue(ds))
    ensures ParseI64("+" + ds) == Some(DigitsValue(ds))
    ensures ParseI64("-" + ds) == Some(-(DigitsValue(ds) as int))
  {
    NumeralAccepted(ds, ds);
    ZeroPaddedAccepted(ds);
    PlusSignAccepted(ds);
    MinusSignAccepted(ds);
  }

  lemma ZeroPaddedAccepted(ds: string)
    requires |ds| >= 1 && AllDigits(ds) && DigitsValue(ds) <= I64_MAX
    ensures ParseI64("0" + ds) == Some(DigitsValue(ds))
  {
    LeadingZeroValue(ds);
    var z := "0" + ds;
    assert z[0] == '0';
    NumeralAccepted(z, z);
  }

  lemma PlusSignAccepted(ds: string)
    requires |ds| >= 1 && AllDigits(ds) && DigitsValue(ds) <= I64_MAX
    ensures ParseI64("+" + ds) == Some(DigitsValue(ds))
  {
    var s := "+" + ds;
    assert s[1..] == ds;
    NumeralAccepted(s, ds);
  }

  lemma MinusSignAccepted(ds: string)
    requires |ds| >= 1 && AllDigits(ds) && DigitsValue(ds) <= I64_MAX
    ensures ParseI64("-" + ds) == Some(-(DigitsValue(ds) as int))
  {
    var s := "-" + ds;
    assert s[1..] == ds;
    NumeralAccepted(s, ds);
  }

  /** A numeral whose digits after the sign are `ds` is read with their value. */
  lemma NumeralAccepted(s: string, ds: string)
    requires |s| >= 1 && UnsignedPart(s) == ds
    requires |ds| >= 1 && AllDigits(ds) && DigitsValue(ds) <= I64_MAX
    ensures ParseI64(s) == Some(Signed(s[0] == '-', DigitsValue(ds)))
  {
    assert IsNumeral(s);
  }


  /** Every `i64` survives being printed and parsed again. */
  lemma ParseFormat(n: i64)
    ensures ParseI64(FormatInt(n)) == Some(n)
  {
    var s := FormatInt(n);
    if n < 0 {
      var ds := NatDigits(-(n as int));
      assert s == "-" + ds;
      assert s[1..] == ds;
      assert DigitsValue(s[1..]) == -(n as int);
    } else {
      var ds := NatDigits(n);
      assert s == ds;
      assert IsDigit(s[0]);
      assert DigitsValue(s) == n;
    }
  }

  // ---------------------------------------------------------------------------
  // UTF-8 (`String::into_bytes`)
  // ---------------------------------------------------------------------------

  predicate IsContinuation(b: byte) {
    0x80 <= b < 0xC0
  }

  /** The UTF-8 encoding of one Unicode scalar value. */
  function Utf8Char(c: char): (bs: seq<byte>)
    ensures 1 <= |bs| <= 4
    ensures |bs| == 1 <==> c as int < 0x80
    ensures |bs| == 1 ==> bs[0] == c as int
    ensures forall i :: 1 <= i < |bs| ==> IsContinuation(bs[i])
  {
    var v := c as int;
    if v < 0x80 then [v]
    else if v < 0x800 then [0xC0 + v / 0x40, 0x80 + v % 0x40]
    else if v < 0x1_0000 then [0xE0 + v / 0x1000, 0x80 + (v / 0x40) % 0x40, 0x80 + v % 0x40]
    else [0xF0 + v / 0x4_0000, 0x80 + (v / 0x1000) % 0x40, 0x80 + (v / 0x40) % 0x40, 0x80 + v % 0x40]
  }

  /** The UTF-8 encoding of a string, character by character. */
  function Utf8(s: string): (bs: seq<byte>)
    ensures |bs| >= |s|
    decreases |s|
  {
    if |s| == 0 then [] else Utf8Char(s[0]) + Utf8(s[1..])
  }

  /** Decodes the first scalar value of `bs`, with the number of bytes it takes;
      truncated, overlong, surrogate and out-of-range sequences are rejected. */
  function DecodeFirst(bs: seq<byte>): (r: Option<(char, nat)>)
    ensures r.Some? ==> 1 <= r.value.1 <= |bs|
  {
    if |bs| == 0 then None
    else
      var b0: int := bs[0];
      if b0 < 0x80 then Some((b0 as char, 1))
      else if b0 < 0xC0 then None
      else if b0 < 0xE0 then
        if |bs| < 2 || !IsContinuation(bs[1]) then None
        else
          var v := (b0 - 0xC0) * 0x40 + (bs[1] as int - 0x80);
          if v < 0x80 then None else Some((v as char, 2))
      else if b0 < 0xF0 then
        if |bs| < 3 || !IsContinuation(bs[1]) || !IsContinuation(bs[2]) then None
        else
          var v := (b0 - 0xE0) * 0x1000 + (bs[1] as int - 0x80) * 0x40 + (bs[2] as int - 0x80);
          if v < 0x800 || (0xD800 <= v < 0xE000) then None else Some((v as char, 3))
      else
        if |bs| < 4 || !IsContinuation(bs[1]) || !IsContinuation(bs[2]) || !IsContinuation(bs[3]) then None
        else
          var v := (b0 - 0xF0) * 0x4_0000 + (bs[1] as int - 0x80) * 0x1000 + (bs[2] as int - 0x80) * 0x40
            + (bs[3] as int - 0x80);
          if v < 0x1_0000 || v > 0x10_FFFF then None else Some((v as char, 4))
  }

  /** Decodes a whole byte string, or rejects it. */
  function Utf8Decode(bs: seq<byte>): Option<string>
    decreases |bs|
  {
    if |bs| == 0 then Some("")
    else match DecodeFirst(bs)
      case None => None
      case Some((c, n)) =>
        match Utf8Decode(bs[n..])
        case None => None
        case Some(rest) => Some([c] + rest)
  }

  lemma DecodeFirstUtf8Char(c: char, rest: seq<byte>)
    ensures DecodeFirst(Utf8Char(c) + rest) == Some((c, |Utf8Char(c)|))
  {
    var v := c as int;
    if v < 0x80 {
    } else if v < 0x800 {
      DecodeTwoBytes(c, rest);
    } else if v < 0x1_0000 {
      DecodeThreeBytes(c, rest);
    } else {
      DecodeFourBytes(c, rest);
    }
  }

  lemma DecodeTwoBytes(c: char, rest: seq<byte>)
    requires 0x80 <= c as int < 0x800
    ensures DecodeFirst(Utf8Char(c) + rest) == Some((c, 2))
  {
    var v := c as int;
    assert (v / 0x40) * 0x40 + v % 0x40 == v;
  }

  lemma DecodeThreeBytes(c: char, rest: seq<byte>)
    requires 0x800 <= c as int < 0x1_0000
    ensures DecodeFirst(Utf8Char(c) + rest) == Some((c, 3))
  {
    var v := c as int;
    assert (v / 0x1000) * 0x1000 + ((v / 0x40) % 0x40) * 0x40 + v % 0x40 == v by {
      assert v / 0x40 == (v / 0x1000) * 0x40 + (v / 0x40) % 0x40;
    }
  }

  lemma DecodeFourBytes(c: char, rest: seq<byte>)
    requires 0x1_0000 <= c as int
    ensures DecodeFirst(Utf8Char(c) + rest) == Some((c, 4))
  {
    var v := c as int;
    assert (v / 0x4_0000) * 0x4_0000 + ((v / 0x1000) % 0x40) * 0x1000 + ((v / 0x40) % 0x40) * 0x40 + v % 0x40 == v by {
      assert v / 0x1000 == (v / 0x4_0000) * 0x40 + (v / 0x1000) % 0x40;
      assert v / 0x40 == (v / 0x1000) * 0x40 + (v / 0x40) % 0x40;
    }
  }

  /** Decoding undoes the encoding. */
  lemma {:induction false} Utf8RoundTrip(s: string)
    ensures Utf8Decode(Utf8(s)) == Some(s)
    decreases |s|
  {
    if |s| > 0 {
      var head := Utf8Char(s[0]);
      var bs := Utf8(s);
      DecodeFirstUtf8Char(s[0], Utf8(s[1..]));
      assert bs[|head|..] == Utf8(s[1..]);
      Utf8RoundTrip(s[1..]);
      assert [s[0]] + s[1..] == s;
    }
  }

  /** Encoding distributes over concatenation, so a formatted message encodes
      piece by piece. */
  lemma {:induction false} Utf8Append(a: string, b: string)
    ensures Utf8(a + b) == Utf8(a) + Utf8(b)
    decreases |a|
  {
    if |a| > 0 {
      assert (a + b)[1..] == a[1..] + b;
      Utf8Append(a[1..], b);
    } else {
      assert a + b == b;
    }
  }

  /** An ASCII string encodes as its own character codes, one byte each. */
  lemma {:induction false} Utf8Ascii(s: string)
    requires forall i :: 0 <= i < |s| ==> s[i] as int < 0x80
    ensures |Utf8(s)| == |s|
    ensures forall i :: 0 <= i < |s| ==> Utf8(s)[i] == s[i] as int
    decreases |s|
  {
    if |s| > 0 {
      Utf8Ascii(s[1..]);
    }
  }
}

=== FILE: workspace_api.dfy ===
/** The newer server's JSON handlers for workspaces: the listing, a workspace's
    top record (plain and for server-side rendering), and the merged path info at
    three route arities. The metadata store and the git path resolver are fixed
    answers held by the `Context`. */
module WorkspaceApi {
  import opened Wrappers
  import opened Text
  import M = Model
  import opened ServerError

  /** The application context, seen through the answers its collaborators give:
      - `listWorkspaces`: the store's workspace rows, in store order;
      - `getWorkspaceById`: the row with an id, or the store's failure;
      - `openRepository`: whether the workspace's git repository opens;
      - `pathinfo`: the resolver's answer for a workspace, an optional commit
        and an optional path. */
  datatype Context = Context(
    listWorkspaces: Result<seq<M.Workspace>, Cause>,
    getWorkspaceById: i64 -> Result<M.Workspace, Cause>,
    openRepository: M.Workspace -> Result<(), Cause>,
    pathinfo: (M.Workspace, Option<string>, Option<string>) -> Result<M.GitResult, string>)

  /** `api_workspace`, given the store's answer to the listing query: the rows,
      unchanged and in order, or the store's failure converted. The older
      server's listing handler is the same function. */
  function ApiWorkspace(rows: Result<seq<M.Workspace>, Cause>): (r: Result<M.WorkspaceRecords, Error>)
    ensures r.Ok? <==> rows.Ok?
    ensures r.Ok? ==> r.value.workspaces == rows.value
    ensures r.Err? ==> r.error == FromCause(rows.error)
  {
    match rows
    case Ok(records) => Ok(M.WorkspaceRecords(records))
    case Err(c) => Err(FromCause(c))
  }

  /** The resolver's default answer (no commit, no path) for a workspace whose
      repository opens; `None` when either step fails. */
  function HeadResult(ctx: Context, workspace: M.Workspace): Option<M.GitResult> {
    if ctx.openRepository(workspace).Err? then None
    else match ctx.pathinfo(workspace, None, None)
      case Ok(result) => Some(result)
      case Err(_) => None
  }

  /** `api_workspace_top`: an unknown workspace is `NotFound`; a known one always
      succeeds, with the default head commit when the repository opens and
      resolves, and without one otherwise. */
  function ApiWorkspaceTop(ctx: Context, workspaceId: i64): (r: Result<M.JsonWorkspaceRecord, Error>)
    ensures r.Err? <==> ctx.getWorkspaceById(workspaceId).Err?
    ensures r.Err? ==> r.error == NotFound
    ensures r.Ok? ==> r.value.workspace == ctx.getWorkspaceById(workspaceId).value
    ensures r.Ok? ==>
      var ws := r.value.workspace;
      && (r.value.headCommit.Some? <==> ctx.openRepository(ws).Ok? && ctx.pathinfo(ws, None, None).Ok?)
      && (r.value.headCommit.Some? ==> r.value.headCommit.value == ctx.pathinfo(ws, None, None).value.commitId)
  {
    match ctx.getWorkspaceById(workspaceId)
    case Err(_) => Err(NotFound)
    case Ok(workspace) =>
      var commitId := match HeadResult(ctx, workspace)
        case Some(result) => Some(result.commitId)
        case None => None;
      Ok(M.JsonWorkspaceRecord(workspace, commitId))
  }

  /** `api_workspace_top_ssr`: like `ApiWorkspaceTop`, but a repository that does
      not open is an error, and the resolved default path info travels with the
      record; the head commit is present exactly when the path info is. */
  function ApiWorkspaceTopSsr(ctx: Context, workspaceId: i64)
    : (r: Result<(M.JsonWorkspaceRecord, Option<M.WorkspacePathInfo>), Error>)
    ensures ctx.getWorkspaceById(workspaceId).Err? ==> r == Err(NotFound)
    ensures ctx.getWorkspaceById(workspaceId).Ok? ==>
      var ws := ctx.getWorkspaceById(workspaceId).value;
      && (ctx.openRepository(ws).Err? ==> r == Err(FromCause(ctx.openRepository(ws).error)))
      && (ctx.openRepository(ws).Ok? ==> r.Ok? && r.value.0.workspace == ws)
    ensures r.Ok? ==> (r.value.0.headCommit.Some? <==> r.value.1.Some?)
    ensures r.Ok? && r.value.1.Some? ==>
      && r.value.1.value.workspace == r.value.0.workspace
      && ctx.pathinfo(r.value.0.workspace, None, None) == Ok(r.value.1.value.result)
      && r.value.0.headCommit.value == r.value.1.value.result.commitId
  {
    match ctx.getWorkspaceById(workspaceId)
    case Err(_) => Err(NotFound)
    case Ok(workspace) =>
      match ctx.openRepository(workspace)
      case Err(c) => Err(FromCause(c))
      case Ok(_) =>
        match ctx.pathinfo(workspace, None, None)
        case Ok(result) =>
          Ok((M.JsonWorkspaceRecord(workspace, Some(result.commitId)), Some(M.WorkspacePathInfo(workspace, result))))
        case Err(_) =>
          Ok((M.JsonWorkspaceRecord(workspace, None), None))
  }

  /** What a path-info request for `(workspaceId, commit, path)` must answer: an
      unknown workspace and every resolver error are `NotFound`, a repository
      that does not open is its converted failure, and a resolution is served as
      the merged info of that workspace and exactly that result. */
  predicate ServesPathinfo(ctx: Context, workspaceId: i64, commit: Option<string>, path: Option<string>,
                           r: Result<M.WorkspacePathInfo, Error>)
  {
    match ctx.getWorkspaceById(workspaceId)
    case Err(_) => r == Err(NotFound)
    case Ok(ws) =>
      if ctx.openRepository(ws).Err? then r == Err(FromCause(ctx.openRepository(ws).error))
      else
        && (r.Ok? <==> ctx.pathinfo(ws, commit, path).Ok?)
        && (r.Err? ==> r.error == NotFound)
        && (r.Ok? ==> r.value == M.WorkspacePathInfo(ws, ctx.pathinfo(ws, commit, path).value))
  }

  /** `api_workspace_pathinfo`. */
  function ApiWorkspacePathinfo(ctx: Context, workspaceId: i64, commit: Option<string>, path: Option<string>)
    : (r: Result<M.WorkspacePathInfo, Error>)
    ensures ServesPathinfo(ctx, workspaceId, commit, path, r)
    ensures r.Err? ==> Raisable(r.error) && !r.error.Internal?
  {
    match ctx.getWorkspaceById(workspaceId)
    case Err(_) => Err(NotFound)
    case Ok(workspace) =>
      match ctx.openRepository(workspace)
      case Err(c) => Err(FromCause(c))
      case Ok(_) =>
        match ctx.pathinfo(workspace, commit, path)
        case Ok(result) => Ok(M.WorkspacePathInfo(workspace, result))
        case Err(_) => Err(NotFound)
  }

  /** `api_workspace_pathinfo_workspace_id`: no commit and no path. */
  function PathinfoWorkspaceId(ctx: Context, workspaceId: i64): (r: Result<M.WorkspacePathInfo, Error>)
    ensures ServesPathinfo(ctx, workspaceId, None, None, r)
  {
    ApiWorkspacePathinfo(ctx, workspaceId, None, None)
  }

  /** `api_workspace_pathinfo_workspace_id_commit_id`: the captured commit and no path. */
  function PathinfoWorkspaceIdCommitId(ctx: Context, workspaceId: i64, commitId: string)
    : (r: Result<M.WorkspacePathInfo, Error>)
    ensures ServesPathinfo(ctx, workspaceId, Some(commitId), None, r)
  {
    ApiWorkspacePathinfo(ctx, workspaceId, Some(commitId), None)
  }

  /** `api_workspace_pathinfo_workspace_id_commit_id_path`: the captured commit and path. */
  function PathinfoWorkspaceIdCommitIdPath(ctx: Context, workspaceId: i64, commitId: string, path: string)
    : (r: Result<M.WorkspacePathInfo, Error>)
    ensures ServesPathinfo(ctx, workspaceId, Some(commitId), Some(path), r)
  {
    ApiWorkspacePathinfo(ctx, workspaceId, Some(commitId), Some(path))
  }

  /** The server-rendered top record is the record the JSON endpoint serves,
      whenever the repository opens; and a head commit announced by the JSON
      endpoint is the commit the default path info is resolved at. */
  lemma TopSsrAgreesWithTop(ctx: Context, workspaceId: i64)
    ensures ApiWorkspaceTopSsr(ctx, workspaceId).Ok? ==>
      ApiWorkspaceTop(ctx, workspaceId) == Ok(ApiWorkspaceTopSsr(ctx, workspaceId).value.0)
    ensures ApiWorkspaceTop(ctx, workspaceId).Ok? && ApiWorkspaceTop(ctx, workspaceId).value.headCommit.Some? ==>
      var info := PathinfoWorkspaceId(ctx, workspaceId);
      info.Ok? && info.value.result.commitId == ApiWorkspaceTop(ctx, workspaceId).value.headCommit.value
  {
  }

  /** The routes of the workspace API, below its mount point. */
  datatype Route =
    | Listing
    | Top(workspaceId: i64)
    | FileRoot(workspaceId: i64)
    | FileCommit(workspaceId: i64, commitId: string)
    | FilePath(workspaceId: i64, commitId: string, path: string)
    | RawPath(workspaceId: i64, commitId: string, path: string)

  /** The JSON bodies the routes serve. */
  datatype Body =
    | Records(records: M.WorkspaceRecords)
    | TopRecord(record: M.JsonWorkspaceRecord)
    | PathInfo(info: M.WorkspacePathInfo)

  /** The commit and path a path-info route resolves, by the captures it has. */
  function Coordinates(route: Route): (Option<string>, Option<string>)
    requires !route.Listing? && !route.Top?
  {
    match route
    case FileRoot(_) => (None, None)
    case FileCommit(_, commitId) => (Some(commitId), None)
    case FilePath(_, commitId, path) => (Some(commitId), Some(path))
    case RawPath(_, commitId, path) => (Some(commitId), Some(path))
  }

  /** A route's answer read as a path-info answer. */
  function AsPathinfo(r: Result<Body, Error>): Result<M.WorkspacePathInfo, Error> {
    match r
    case Ok(PathInfo(info)) => Ok(info)
    case Ok(_) => Err(Internal)
    case Err(e) => Err(e)
  }

  /** The route table: the listing, the top record, and the path-info handler
      behind four routes, of which the `raw/` one also answers with JSON. */
  function Dispatch(ctx: Context, route: Route): (r: Result<Body, Error>)
    ensures route.Listing? ==>
      && (r.Ok? <==> ctx.listWorkspaces.Ok?)
      && (r.Ok? ==> r == Ok(Records(M.WorkspaceRecords(ctx.listWorkspaces.value))))
      && (r.Err? ==> r.error == FromCause(ctx.listWorkspaces.error))
    ensures route.Top? ==>
      var top := ApiWorkspaceTop(ctx, route.workspaceId);
      && (r.Ok? <==> ctx.getWorkspaceById(route.workspaceId).Ok?)
      && (r.Ok? ==> r.value.TopRecord? && r.value.record.workspace == ctx.getWorkspaceById(route.workspaceId).value)
      && (r.Ok? ==> r.value == TopRecord(top.value))
      && (r.Err? ==> r.error == NotFound)
    ensures !route.Listing? && !route.Top? ==>
      && (r.Ok? ==> r.value.PathInfo?)
      && ServesPathinfo(ctx, route.workspaceId, Coordinates(route).0, Coordinates(route).1, AsPathinfo(r))
  {
    match route
    case Listing =>
      (match ApiWorkspace(ctx.listWorkspaces)
       case Ok(records) => Ok(Records(records))
       case Err(e) => Err(e))
    case Top(id) =>
      (match ApiWorkspaceTop(ctx, id)
       case Ok(record) => Ok(TopRecord(record))
       case Err(e) => Err(e))
    case FileRoot(id) => PathinfoBody(PathinfoWorkspaceId(ctx, id))
    case FileCommit(id, commitId) => PathinfoBody(PathinfoWorkspaceIdCommitId(ctx, id, commitId))
    case FilePath(id, commitId, path) => PathinfoBody(PathinfoWorkspaceIdCommitIdPath(ctx, id, commitId, path))
    case RawPath(id, commitId, path) => PathinfoBody(PathinfoWorkspaceIdCommitIdPath(ctx, id, commitId, path))
  }

  function PathinfoBody(r: Result<M.WorkspacePathInfo, Error>): (b: Result<Body, Error>)
    ensures AsPathinfo(b) == r
  {
    match r
    case Ok(info) => Ok(PathInfo(info))
    case Err(e) => Err(e)
  }

  /** The API's `raw/` route serves the same JSON path info as the `file/` route
      with the same captures, not the file's bytes. */
  lemma RawApiRouteServesPathinfo(ctx: Context, workspaceId: i64, commitId: string, path: string)
    ensures Dispatch(ctx, RawPath(workspaceId, commitId, path)) == Dispatch(ctx, FilePath(workspaceId, commitId, path))
    ensures Dispatch(ctx, RawPath(workspaceId, commitId, path)).Ok? ==>
      Dispatch(ctx, RawPath(workspaceId, commitId, path)).value.PathInfo?
  {
  }
}

=== FILE: workspace_pages.dfy ===
/** The newer server's HTML pages for workspaces, each embedding the client
    state the browser later resumes from, and the raw-content download of a file
    in a workspace. */
module WorkspacePages {
  import opened Wrappers
  import opened Text
  import M = Model
  import opened ServerError
  import Api = WorkspaceApi
  import Client = ClientApp
  import Fetch = ClientFetch

  /** A page response: HTML carrying the serialized client state, or an error. */
  datatype Page = Html(app: Client.App) | ErrorPage(response: ErrorResponse)

  /** `render_workspace_listing`. */
  function RenderWorkspaceListing(ctx: Api.Context): (p: Page)
    ensures p.Html? <==> Api.ApiWorkspace(ctx.listWorkspaces).Ok?
    ensures p.Html? ==> p.app == Client.WithWorkspaceListing(Api.ApiWorkspace(ctx.listWorkspaces).value)
    ensures p.ErrorPage? ==> p.response == IntoResponse(Api.ApiWorkspace(ctx.listWorkspaces).error)
  {
    match Api.ApiWorkspace(ctx.listWorkspaces)
    case Ok(listing) => Html(Client.WithWorkspaceListing(listing))
    case Err(e) => ErrorPage(IntoResponse(e))
  }

  /** `render_workspace`: the top page of a workspace, from the server-rendering
      variant of the top record. */
  function RenderWorkspace(ctx: Api.Context, workspaceId: i64): (p: Page)
    ensures p.Html? <==> Api.ApiWorkspaceTopSsr(ctx, workspaceId).Ok?
    ensures p.Html? ==>
      var top := Api.ApiWorkspaceTopSsr(ctx, workspaceId).value;
      p.app == Client.WithWorkspaceTop(workspaceId, top.0, top.1)
    ensures p.ErrorPage? ==> p.response == IntoResponse(Api.ApiWorkspaceTopSsr(ctx, workspaceId).error)
  {
    match Api.ApiWorkspaceTopSsr(ctx, workspaceId)
    case Ok((record, info)) => Html(Client.WithWorkspaceTop(workspaceId, record, info))
    case Err(e) => ErrorPage(IntoResponse(e))
  }

  /** `render_workspace_pathinfo_workspace_id_commit_id`: the page of a commit's
      root, whose client resource records the empty path. */
  function RenderPathinfoCommit(ctx: Api.Context, workspaceId: i64, commitId: string): (p: Page)
    ensures p.Html? <==> Api.PathinfoWorkspaceIdCommitId(ctx, workspaceId, commitId).Ok?
    ensures p.Html? ==>
      && p.app.resource == Client.WorkspacePathInfo(workspaceId, commitId, "")
      && p.app.content == M.Complete(Client.PathInfoContent(Api.PathinfoWorkspaceIdCommitId(ctx, workspaceId, commitId).value))
      && p.app == Client.WithWorkspacePathinfo(workspaceId, commitId, "", Api.PathinfoWorkspaceIdCommitId(ctx, workspaceId, commitId).value)
    ensures p.ErrorPage? ==>
      p.response == IntoResponse(Api.PathinfoWorkspaceIdCommitId(ctx, workspaceId, commitId).error)
  {
    match Api.PathinfoWorkspaceIdCommitId(ctx, workspaceId, commitId)
    case Ok(info) => Html(Client.WithWorkspacePathinfo(workspaceId, commitId, "", info))
    case Err(e) => ErrorPage(IntoResponse(e))
  }

  /** `render_workspace_pathinfo_workspace_id_commit_id_path`: the page of a path
      at a commit, whose client resource records the captured path unchanged. */
  function RenderPathinfoCommitPath(ctx: Api.Context, workspaceId: i64, commitId: string, path: string): (p: Page)
    ensures p.Html? <==> Api.PathinfoWorkspaceIdCommitIdPath(ctx, workspaceId, commitId, path).Ok?
    ensures p.Html? ==>
      && p.app.resource == Client.WorkspacePathInfo(workspaceId, commitId, path)
      && p.app.content
         == M.Complete(Client.PathInfoContent(Api.PathinfoWorkspaceIdCommitIdPath(ctx, workspaceId, commitId, path).value))
      && p.app
         == Client.WithWorkspacePathinfo(workspaceId, commitId, path, Api.PathinfoWorkspaceIdCommitIdPath(ctx, workspaceId, commitId, path).value)
    ensures p.ErrorPage? ==>
      p.response == IntoResponse(Api.PathinfoWorkspaceIdCommitIdPath(ctx, workspaceId, commitId, path).error)
  {
    match Api.PathinfoWorkspaceIdCommitIdPath(ctx, workspaceId, commitId, path)
    case Ok(info) => Html(Client.WithWorkspacePathinfo(workspaceId, commitId, path, info))
    case Err(e) => ErrorPage(IntoResponse(e))
  }

  /** The body served for an embedded sub-repository: the text
      `location/raw/commit/path`, as UTF-8. */
  function SubRepoBody(location: string, commit: string, path: string): (bs: seq<byte>)
    ensures Utf8Decode(bs) == Some(location + "/raw/" + commit + "/" + path)
    ensures |bs| >= |location| + 6 + |commit| + |path|
  {
    Utf8RoundTrip(location + "/raw/" + commit + "/" + path);
    Utf8(location + "/raw/" + commit + "/" + path)
  }

  /** `raw_workspace_pathinfo_workspace_id_commit_id_path`. `writeFails` says
      whether copying the blob into the response buffer reports an error. */
  function RawPathinfo(ctx: Api.Context, workspaceId: i64, commitId: string, path: string, writeFails: bool)
    : (r: Result<seq<byte>, Error>)
    ensures ctx.getWorkspaceById(workspaceId).Err? ==> r == Err(NotFound)
    ensures ctx.getWorkspaceById(workspaceId).Ok? ==>
      var ws := ctx.getWorkspaceById(workspaceId).value;
      && (ctx.openRepository(ws).Err? ==> r == Err(FromCause(ctx.openRepository(ws).error)))
      && (ctx.openRepository(ws).Ok? && ctx.pathinfo(ws, Some(commitId), Some(path)).Err? ==> r == Err(NotFound))
      && (ctx.openRepository(ws).Ok? && ctx.pathinfo(ws, Some(commitId), Some(path)).Ok? ==>
            var target := ctx.pathinfo(ws, Some(commitId), Some(path)).value.target;
            && (target.Object? ==>
                  if target.kind == Some(M.Blob) && target.blob.Some? then
                    r == (if writeFails then Err(Internal) else Ok(target.blob.value))
                  else r == Err(NotFound))
            && (target.SubRepoPath? ==> r == Ok(SubRepoBody(target.location, target.commit, target.path))))
    ensures r.Err? ==> Raisable(r.error)
    ensures r.Err? && r.error.Internal? ==> writeFails
  {
    match ctx.getWorkspaceById(workspaceId)
    case Err(_) => Err(NotFound)
    case Ok(workspace) =>
      match ctx.openRepository(workspace)
      case Err(c) => Err(FromCause(c))
      case Ok(_) =>
        match ctx.pathinfo(workspace, Some(commitId), Some(path))
        case Err(_) => Err(NotFound)
        case Ok(result) =>
          match result.target
          case Object(kind, blob) =>
            if kind == Some(M.Blob) then
              match blob
              case Some(content) => if writeFails then Err(Internal) else Ok(content)
              case None => Err(NotFound)
            else Err(NotFound)
          case SubRepoPath(location, commit, subPath) =>
            Ok(SubRepoBody(location, commit, subPath))
  }

  /** The download agrees with the JSON path info for the same coordinates:
      bytes are served exactly when the path info resolves to a blob-kinded
      object with content (and the copy succeeds) or to a sub-repository, and
      every other resolution, like every resolver error, is a 404. */
  lemma RawAgreesWithPathinfo(ctx: Api.Context, workspaceId: i64, commitId: string, path: string)
    ensures
      var raw := RawPathinfo(ctx, workspaceId, commitId, path, false);
      var info := Api.PathinfoWorkspaceIdCommitIdPath(ctx, workspaceId, commitId, path);
      var served := info.Ok? &&
        (info.value.result.target.SubRepoPath? ||
         (info.value.result.target.kind == Some(M.Blob) && info.value.result.target.blob.Some?));
      && (raw.Ok? <==> served)
      && (raw.Ok? && info.value.result.target.Object? ==> raw.value == info.value.result.target.blob.value)
      && (info.Err? ==> raw == Err(info.error))
      && (info.Ok? && !raw.Ok? ==> raw == Err(NotFound))
  {
  }

  /** The sub-repository body decodes to the redirect text itself, and for an
      ASCII location the body starts with that location's own bytes. */
  lemma SubRepoBodyIsRedirectText(location: string, commit: string, path: string)
    ensures Utf8Decode(SubRepoBody(location, commit, path)) == Some(location + "/raw/" + commit + "/" + path)
    ensures (forall i :: 0 <= i < |location| ==> location[i] as int < 0x80) ==>
      && |SubRepoBody(location, commit, path)| >= |location|
      && forall i :: 0 <= i < |location| ==> SubRepoBody(location, commit, path)[i] == location[i] as int
  {
    var text := location + "/raw/" + commit + "/" + path;
    Utf8RoundTrip(text);
    assert text == location + ("/raw/" + commit + "/" + path);
    Utf8Append(location, "/raw/" + commit + "/" + path);
    if forall i :: 0 <= i < |location| ==> location[i] as int < 0x80 {
      Utf8Ascii(location);
    }
  }

  /** Every page and download error these handlers produce is answered with 404
      or 500, never with 400, 401 or 403; a 404 is always `NotFound`. */
  lemma HandlerErrorsAre404Or500(ctx: Api.Context, workspaceId: i64, commitId: string, path: string, writeFails: bool)
    ensures
      var p := RenderWorkspaceListing(ctx);
      p.ErrorPage? ==> p.response.status == 500
    ensures
      var p := RenderPathinfoCommit(ctx, workspaceId, commitId);
      p.ErrorPage? ==> p.response.status in {404, 500}
    ensures
      var p := RenderPathinfoCommitPath(ctx, workspaceId, commitId, path);
      p.ErrorPage? ==> p.response.status in {404, 500}
    ensures
      var p := RenderWorkspace(ctx, workspaceId);
      p.ErrorPage? ==> p.response.status in {404, 500}
    ensures
      var raw := RawPathinfo(ctx, workspaceId, commitId, path, writeFails);
      raw.Err? ==> IntoResponse(raw.error).status in {404, 500}
  {
    var listing := RenderWorkspaceListing(ctx);
    if listing.ErrorPage? {
      RaisableStatus(Api.ApiWorkspace(ctx.listWorkspaces).error);
    }
    var commitPage := RenderPathinfoCommit(ctx, workspaceId, commitId);
    if commitPage.ErrorPage? {
      RaisableStatus(Api.PathinfoWorkspaceIdCommitId(ctx, workspaceId, commitId).error);
    }
    var p := RenderPathinfoCommitPath(ctx, workspaceId, commitId, path);
    if p.ErrorPage? {
      RaisableStatus(Api.PathinfoWorkspaceIdCommitIdPath(ctx, workspaceId, commitId, path).error);
    }
    var raw := RawPathinfo(ctx, workspaceId, commitId, path, writeFails);
    if raw.Err? {
      RaisableStatus(raw.error);
    }
  }

  /** A rendered path page hands the browser a settled client state for exactly
      the requested coordinates, which takes over history on start, and which
      the JSON answer for the same resource would leave unchanged: the
      server-rendered and the client-fetched states agree. */
  lemma PathPageHydratesConsistently(ctx: Api.Context, workspaceId: i64, commitId: string, path: string)
    requires RenderPathinfoCommitPath(ctx, workspaceId, commitId, path).Html?
    ensures
      var app := RenderPathinfoCommitPath(ctx, workspaceId, commitId, path).app;
      var info := Api.ApiWorkspacePathinfo(ctx, workspaceId, Some(commitId), Some(path));
      && Client.Settled(app)
      && Client.Init(app) == [Client.ReplaceState(app.resource), Client.ListenPopState]
      && info.Ok?
      && Client.Update(app, Client.ReceivedContent(app.resource, Client.PathInfoContent(info.value))).app == app
  {
  }

  /** A rendered top page of a workspace is what the client itself would show
      after fetching that workspace, provided the resolver answers the head
      commit it reports as it answers the default: the state the server embeds
      is the state the browser would reach on its own. */
  lemma TopPageHydratesConsistently(ctx: Api.Context, failure: string, workspaceId: i64)
    requires RenderWorkspace(ctx, workspaceId).Html?
    requires Fetch.ResolvesHeadConsistently(ctx, ctx.getWorkspaceById(workspaceId).value)
    ensures
      var app := RenderWorkspace(ctx, workspaceId).app;
      var answer := Fetch.FetchWorkspaceAnswer(ctx, failure, app.resource, workspaceId);
      && answer.ReceivedContent?
      && Client.Update(app, answer).app == app
  {
    var ws := ctx.getWorkspaceById(workspaceId).value;
    var top := Api.ApiWorkspaceTop(ctx, workspaceId);
    Api.TopSsrAgreesWithTop(ctx, workspaceId);
    if top.value.headCommit.Some? {
      var result := ctx.pathinfo(ws, None, None).value;
      assert ctx.pathinfo(ws, Some(top.value.headCommit.value), None) == Ok(result);
      assert Api.PathinfoWorkspaceIdCommitId(ctx, workspaceId, top.value.headCommit.value)
        == Ok(M.WorkspacePathInfo(ws, result));
    }
  }

  /** A rendered path page is exactly what the client shows once its own fetch of
      the page's resource is answered. */
  lemma PathPageMatchesClientFetch(ctx: Api.Context, failure: string, workspaceId: i64, commitId: string, path: string)
    requires RenderPathinfoCommitPath(ctx, workspaceId, commitId, path).Html?
    ensures
      var app := RenderPathinfoCommitPath(ctx, workspaceId, commitId, path).app;
      var fetch := Client.FetchFor(app.resource)[0];
      var answer := Fetch.Answer(ctx, failure, fetch).value;
      && answer.ReceivedContent?
      && Client.Update(app, answer).app == app
  {
  }
}

=== FILE: wrappers.dfy ===
/** Optional values and fallible results, the two shapes Rust's `Option` and
    `Result` take throughout the model. */
module Wrappers {

  /** Rust's `Option<T>`. */
  datatype Option<+T> = None | Some(value: T)

  /** Rust's `Result<T, E>`. */
  datatype Result<+T, +E> = Ok(value: T) | Err(error: E)
}
